=== FILE: README.md ===
# Preventive-maintenance scheduler — a Dafny model

This project models the core of an industrial preventive-maintenance dashboard:

- a **machine** carries a **maintenance plan**. Each plan item repeats on a time interval (days, weeks, months or years) or on a usage limit (hours, cycles, tons, km);
- **work orders** (maintenance tasks) are created for the plan items;
- the dashboard summarises machines and work orders in aggregate figures.

The model covers:

- the scheduling engine:
  - the next-date calculator;
  - the follow-up work order created when a preventive work order is completed;
  - the first work orders of a newly registered plan;
- the dashboard statistics;
- the page's state transitions: register, edit and delete a machine, and change a work order's status;
- the task list's search filter and its "upcoming" view;
- the machine-management screen:
  - building, adding and removing plan items;
  - the submit guard;
  - loading a machine for editing;
  - the machine list's filter.

Modelling choices:

- **Dates** are civil dates `Date(year, month, day)`, always valid (`CivilDate`).
  - `Ordinal` numbers the days, so comparing two dates' `getTime()` is comparing ordinals.
  - JavaScript's `setDate`, `setMonth` and `setFullYear` rollover is modelled by `Dates.Walk`. For example, Jan 31 plus one month is Mar 3, or Mar 2 in a leap year.
  - Dates are stored as dates rather than as `YYYY-MM-DD` strings. `toISOString().split('T')[0]` is the identity on a UTC calendar date.
- **JavaScript truthiness** is written out. An optional number is "set" when present and non-zero (`Scheduler.IsSet`). An optional string is set when present and non-empty (`Scheduler.IsSetText`).
- **Mutation:** the source mutates plan items in place. The model returns the written-back machine or plan as part of each result.
- **Non-deterministic inputs become parameters:**
  - the current date (`new Date()`) becomes `now`;
  - fresh ids (`Date.now()`, `Math.random()`) become `freshId`.
- **The page's state** is the pair of lists `App.AppState(machines, tasks)`. Each handler is a function from one state to the next.
- **Numbers:** interval and usage values are `int`. Durations, costs and the two averages are `real`.

Modules:

| file | module | contents |
|---|---|---|
| wrappers.dfy | Wrappers | `Option` |
| seqs.dfy | Seqs | `Filter`, `Count`, `FindIndex` and their lemmas (JavaScript's `filter`, `find`, `length`) |
| dates.dfy | Dates | civil dates, day ordinals, `AddDays`, `AddMonths` and `AddYears` with their rollover |
| text.dfy | Text | `trim`, `toLowerCase`, `includes`, `split`, `join`, `formatDateSafely` |
| types.dfy | Types | the entities and the string-literal tables |
| sorting.dfy | Sorting | a stable sort by an integer key (`Array.prototype.sort` with a numeric comparator) |
| scheduler.dfy | Scheduler | `calculateNextMaintenanceDate`, `generateNextMaintenanceTask`, `generateInitialMaintenanceTasks` |
| stats.dfy | Stats | `calculateDashboardStats` |
| app.dfy | App | the page's handlers, `filteredTasks` and `upcomingTasks` |
| machine_management.dfy | MachineManagement | the machine-management screen's handlers and `filteredMachines` |
| scenarios.dfy | Scenarios | worked examples: registration, completion, and the usage gate |

## Model

| member | source | states |
|---|---|---|
| Dates.AddDays | src/lib/data.ts:385-390 | Adding n days moves the date's day number by exactly n, so months and years roll over as `setDate` makes them. |
| Dates.AddMonths | src/lib/data.ts:391-393 | The result is n months later. It keeps the day of the month when the target month has it; otherwise the surplus days spill into the following month. |
| Dates.AddYears | src/lib/data.ts:394-396 | The result has the same month and day n years later. February 29th becomes March 1st in a common year. |
| Dates.DateLeIsCalendarOrder | src/lib/data.ts:311 | Comparing dates by their time value agrees, in both directions, with (year, month, day) calendar order. |
| Dates.OrdinalInjective | src/app/page.tsx:193 | Two dates with the same time value are the same date. |
| Dates.AddDaysAdditive | src/lib/data.ts:385-390 | Adding a days and then b days is adding a + b days. |
| Dates.ThreeMonthsExample | src/lib/data.ts:391-393 | 2024-11-15 plus three months is 2025-02-15, across the year boundary. |
| Dates.MonthOverflowExample | src/lib/data.ts:391-393 | 2023-01-31 plus one month is 2023-03-03. |
| Dates.LeapMonthOverflowExample | src/lib/data.ts:391-393 | 2024-01-31 plus one month is 2024-03-02. |
| Dates.OneYearExample | src/lib/data.ts:394-396 | 2024-01-01 plus one year is 2025-01-01. |
| Dates.LeapDayYearExample | src/lib/data.ts:394-396 | 2024-02-29 plus one year is 2025-03-01. |
| Dates.YearBoundaryExample | src/lib/data.ts:385-387 | 2024-12-30 plus three days is 2025-01-02. |
| Types.ParseTaskStatus | src/lib/types.ts:115-120 | A status string is recognised exactly when it is one of the four status literals, and it maps back to that literal. |
| Types.ParseMachineStatus | src/lib/types.ts:129-134 | A machine-status string is recognised exactly when it is one of the four literals, and it maps back to that literal. |
| Types.ParseIntervalUnit | src/lib/types.ts:101-106 | An interval-unit string is recognised exactly when it is days, weeks, months or years. |
| Types.ParseUsageUnit | src/lib/types.ts:108-113 | A usage-unit string is recognised exactly when it is hours, cycles, tons or km. |
| Types.ParseTaskPriority | src/lib/types.ts:122-127 | A priority string is recognised exactly when it is one of the four priority literals. |
| Types.ParseScheduleType | src/lib/types.ts:96-99 | A schedule-type string is recognised exactly when it is time or usage. |
| Types.LiteralsRoundTrip | src/lib/types.ts:96-134 | Every value of every table prints to a literal that parses back to that value. |
| Types.WildcardIsNoLiteral | src/app/page.tsx:185-186 | The string "all" parses as no task status, no task priority and no machine status. |
| Text.Trim | src/components/MachineManagement.tsx:139 | A trimmed string is empty exactly when every character of the input is whitespace; otherwise it starts and ends with non-whitespace. |
| Text.Lower | src/app/page.tsx:183-184 | Lower-casing keeps the length and maps each character to its lower-case form. |
| Text.LowerIdempotent | src/app/page.tsx:183-184 | Lower-casing twice is lower-casing once. |
| Text.ContainsIffOccurs | src/app/page.tsx:183-184 | `includes` holds exactly when the needle occurs at some position of the haystack. |
| Text.ContainsEmpty | src/app/page.tsx:183-184 | Every string includes the empty string, so an empty search matches everything. |
| Text.JoinSplit | src/app/page.tsx:45 | Splitting a string and joining the pieces with the same separator gives the string back. |
| Text.SplitJoin | src/app/page.tsx:45 | Joining separator-free pieces and splitting the result gives the pieces back. |
| Text.FormatDateSafely | src/app/page.tsx:43-50 | With at least three '-'-separated pieces, the result is the third, second and first piece joined by '/'. |
| Text.FormatDateSafelyReorders | src/app/page.tsx:43-50 | `YYYY-MM-DD` becomes `DD/MM/YYYY`, with each piece copied unchanged. |
| Scheduler.NextMaintenanceDate | src/lib/data.ts:377-401 | A time item with a non-zero interval and a unit moves the date by n days, 7n days, n months or n years. Anything else returns the starting date unchanged. |
| Scheduler.CompleteItem | src/lib/data.ts:417-461 | A follow-up is emitted exactly when the item regenerates: active, and either time-based or with the usage counter at or over a set limit. An inactive item, or a usage item whose counter or limit is unset, is left untouched. Below the limit only the counter goes back to 0. A follow-up is a pending, medium-priority preventive work order for the item, due one interval after completion, that copies the completed order's duration, assignee and cost; the item then records the execution and the new due date, and a usage item's counter goes back to 0. |
| Scheduler.LinkedItemIndex | src/lib/data.ts:409-415 | The linked item is found exactly when the completed order is preventive, carries a non-empty item id, and the plan has an item with that id; it is the first such item. |
| Scheduler.GenerateNextTask | src/lib/data.ts:404-461 | Orders that are not preventive, not linked, or whose item is gone change nothing and emit nothing. Otherwise only the first linked item changes: it becomes exactly what `CompleteItem` makes of it, and the emitted follow-up is exactly `CompleteItem`'s. So the usage counter below the limit is reset, and the follow-up is pending, medium priority, copies the order's assignee, cost and duration, and is due one interval after completion. |
| Scheduler.UsageFollowUpDueOnCompletion | src/lib/data.ts:421-434 | A usage-based follow-up is due on the completion date itself, and the counter is back at 0. |
| Scheduler.UsageCompletionClearsCounter | src/lib/data.ts:424-434 | After completing an order of an active usage item with a set limit, no usage is left on the counter. Completing it again before new usage is recorded emits nothing. |
| Scheduler.FollowUpAnchoredOnItem | src/lib/data.ts:436-458 | Every follow-up has an active item in the updated plan whose next scheduled date is the follow-up's due date. |
| Scheduler.InactiveItemNeverRegenerates | src/lib/data.ts:417-419 | Completing an order linked to an inactive item leaves the machine as it was and emits nothing. |
| Scheduler.EstimatedDays | src/lib/data.ts:476 | The estimate is the ceiling of limit / 8: the smallest whole number of 8-hour days that reaches the limit. |
| Scheduler.InitialDate | src/lib/data.ts:468-481 | An item gets a first due date exactly when it is active and has a complete interval or a set usage limit. That date is one interval after acquisition for a time item, and the estimated days after acquisition for a usage item. |
| Scheduler.InitialTaskIdInjective | src/lib/data.ts:484 | `init_<machine>_<item>` ids of one machine determine the item id. |
| Scheduler.InitialTasks | src/lib/data.ts:464-504 | The k-th work order belongs to the k-th schedulable item of the plan, in plan order. It is linked to that item, carries its `init_<machine>_<item>` id, task name and description, is due on its first due date, and has no assignee, cost, notes or actual duration. There is one order per such item and none for the others. Every order is pending, preventive, medium priority, two hours long, and on the machine. |
| Scheduler.ScheduleItem | src/lib/data.ts:499-500 | The write-back changes only the next scheduled date, and only for schedulable items, to their first due date. |
| Scheduler.GenerateInitialMaintenanceTasks | src/lib/data.ts:464-504 | The single pass over the plan yields exactly the reference list of first work orders, and the plan with every scheduled item's due date written back. |
| Scheduler.InitialTasksRecordedInPlan | src/lib/data.ts:497-500 | Every first work order finds its item in the written-back plan, carrying the order's due date. |
| Scheduler.AllInactivePlanYieldsNothing | src/lib/data.ts:468 | A plan with no active item gets no work orders. |
| Scheduler.InitialTaskIdsDistinct | src/lib/data.ts:484 | When the plan's item ids are distinct, so are the first work orders' ids. |
| Stats.MachineStatusPartition | src/lib/data.ts:278-281 | The operational, maintenance, critical and stopped counts add up to the number of machines. |
| Stats.Efficiency | src/lib/data.ts:307-315 | With some order completed, efficiency is the on-time completions as a percentage of all completions: that percentage of the completed count equals the on-time count. It lies between 0 and 100, is 100 when every completion was on or before its due date, and is 0 when nothing is completed. |
| Stats.AverageCompletionTime | src/lib/data.ts:302-305 | The average is 0 when no completed order has a recorded duration. |
| Stats.AverageWithinRange | src/lib/data.ts:302-305 | When every recorded duration lies in [lo, hi], so does the average. |
| Stats.ComputeStats | src/lib/data.ts:277-329 | It states: the machine total; the four status counts summing to it; the pending and overdue counts within the number of orders; the month's completions within the number of orders; efficiency within 0..100 and 0 with nothing completed; the average 0 with nothing recorded; and a non-negative monthly cost when costs are non-negative. |
| Stats.StatsAfterAddingMachine | src/lib/data.ts:278-281 | One more machine raises the total and exactly its own status's count by one. The other machine counts and every task figure stay the same. |
| Stats.StatsAfterAddingTask | src/lib/data.ts:283-300 | One more order leaves the machine figures alone. It raises the pending, overdue and month's-completion counts by its own contribution, and the month's cost by its cost when it was completed this month. |
| Sorting.SortBy | src/app/page.tsx:193 | The sort is a permutation of its input with non-decreasing keys. |
| Sorting.SortByStable | src/app/page.tsx:193 | Elements with equal keys keep their input order. |
| App.AddMachine | src/app/page.tsx:71-91 | The machine is appended under the fresh id with every form field, no maintenance history, and each plan item as submitted except that schedulable items carry their first due date. The orders appended after the existing list are exactly the first work orders of the machine's plan, and each is recorded in the stored plan. |
| App.NewPlanItems | src/app/page.tsx:100-102 | An edited plan's item is scheduled exactly when it is active and its id is new to the machine. |
| App.EditedMachine | src/app/page.tsx:96-105 | An edit keeps the machine's id and history and takes every form field. Items already in the plan, and inactive ones, stay as submitted. Items new to the machine get their first due date written back when they are schedulable. |
| App.EditTasks | src/app/page.tsx:99-106 | The orders an edit schedules pair up, in order, with the schedulable items among those new to the machine. Each is linked to its item, carries its `init_` id, task name and description, and is due on the item's first date from the form's acquisition date. Each is pending, preventive, medium priority and two hours long, under the form's machine name, with no assignee, cost, notes, actual duration or completion date. |
| App.UpdateMachine | src/app/page.tsx:93-119 | Machines with other ids are unchanged and machines with the id take the edit. The new work orders come after the existing ones, each pending and linked to an item new to that machine. An unknown id changes nothing. |
| App.UpdateMachineSchedulesNewItems | src/app/page.tsx:93-119 | Editing the one machine with an id appends exactly the edit's first work orders for that machine after the existing orders: one per schedulable new item, in plan order, each due on the item's first date. |
| App.DeleteMachine | src/app/page.tsx:121-124 | The machine and its work orders are gone and everything else stays in order. Exactly the machines with the id and exactly the orders of it are removed, counted with repeats, so no surviving copy is dropped. |
| App.DeleteMachineIdempotent | src/app/page.tsx:121-124 | Deleting twice is deleting once. |
| App.DeleteUnknownMachine | src/app/page.tsx:121-124 | Deleting an id nothing carries changes nothing. |
| App.WithStatus | src/app/page.tsx:129-136 | The order takes the new status. It carries the fixed completion date exactly when completed, and is otherwise unchanged. |
| App.MarkStatus | src/app/page.tsx:128-136 | Orders with the id take the new status; the others are kept in place. |
| App.MachineIndex | src/app/page.tsx:140-141 | The order's machine is found exactly when some machine has its id, and it is the first such machine, as `find` returns. |
| App.FollowUp | src/app/page.tsx:139-163 | Only completed, preventive, linked orders whose machine exists reach the engine. For those, the step is exactly the engine's outcome on the first machine with the order's machine id: the follow-up exists exactly when the engine emits one, that is when the linked item regenerates, and that machine becomes the engine's updated machine. When a follow-up is emitted, every machine with that id takes the updated machine; otherwise only the found machine changes. A follow-up is pending and preventive, on the order's machine and item, and the item records it with a due date one interval after the current date. Machines of other ids are untouched. |
| App.FollowUps | src/app/page.tsx:127-170 | There are at most as many follow-ups as orders with the id, none unless the new status is completed, and each follows up one of those orders. |
| App.UpdateTaskStatus | src/app/page.tsx:127-170 | Orders with the id take the status and completion stamp, and others are unchanged. Follow-ups come after the list, at most one per matching order and none for other statuses. An unknown id changes nothing. |
| App.FollowUpsFromFirst | src/app/page.tsx:127-170 | Orders before the first one with the id contribute nothing: the follow-ups start with that order's own step, run on the unchanged machines. |
| App.UpdateTaskStatusRegenerates | src/app/page.tsx:139-150 | Completing the first order with an id appends a follow-up right after the updated list whenever that order is preventive and linked, its machine exists and the linked item regenerates. The follow-up has the fresh id, is pending, is on the same machine and item, and is due one interval after the current date. |
| App.UniqueTaskUpdate | src/app/page.tsx:127-170 | When the order's id is unique, the update is exactly that order's new status plus its single follow-up step. |
| App.FilteredTasks | src/app/page.tsx:182-189 | The shown orders keep list order and each matches the search and both drop-downs. Exactly the non-matching orders are left out, counted with repeats, so every matching copy is shown. |
| App.UnfilteredTaskList | src/app/page.tsx:182-189 | An empty search with both drop-downs on "all" shows the whole list. |
| App.StatusFilterSelects | src/app/page.tsx:185 | Choosing a status shows orders of that status only. |
| App.UnknownStatusShowsNothing | src/app/page.tsx:185 | A status choice that is neither "all" nor a status literal shows nothing. |
| App.UpcomingTasks | src/app/page.tsx:191-193 | The upcoming view holds exactly the pending and overdue orders, as a multiset, earliest due date first. |
| App.UpcomingTasksStable | src/app/page.tsx:191-193 | Orders due on the same day keep their list order. |
| MachineManagement.BuildItem | src/components/MachineManagement.tsx:100-111 | A time item carries only the interval fields, and a usage item only the usage fields with its counter at 0. Name, description and active flag come from the form. |
| MachineManagement.AddMaintenanceItem | src/components/MachineManagement.tsx:97-129 | A blank task name changes nothing. Otherwise the built item is appended and the item form is reset to its defaults. |
| MachineManagement.RemoveMaintenanceItem | src/components/MachineManagement.tsx:131-136 | Exactly the items with the id are removed, and the rest keep their order. |
| MachineManagement.RemoveUndoesAdd | src/components/MachineManagement.tsx:97-136 | Removing a just-added item gives the plan back. |
| MachineManagement.BuiltItemSchedulable | src/components/MachineManagement.tsx:100-111 | An active built item with a non-zero interval or limit gets a first work order. |
| MachineManagement.FreshUsageItemWaitsForUsage | src/components/MachineManagement.tsx:109 | A newly built usage item starts at 0, so completing its order emits nothing and changes nothing. |
| MachineManagement.SubmitMachine | src/components/MachineManagement.tsx:138-156 | A blank name or model changes nothing. Otherwise, when editing, the result is exactly the edit handler's update of that id; when not, it is exactly the registration of a new machine under the fresh id. Either way the existing work orders are kept in front, unchanged. |
| MachineManagement.EditForm | src/components/MachineManagement.tsx:158-173 | The form carries the machine's plan and dates; absent operating hours show as 0. |
| MachineManagement.UnchangedEditIsQuiet | src/components/MachineManagement.tsx:158-173 | Saving an opened machine unchanged schedules nothing and changes the machine only by filling absent hours with 0. |
| MachineManagement.FilteredMachines | src/components/MachineManagement.tsx:175-182 | The shown machines keep list order and each matches the search and the status choice. Exactly the non-matching machines are left out, counted with repeats, so every matching copy is shown. |
| MachineManagement.UnfilteredMachineList | src/components/MachineManagement.tsx:175-182 | An empty search with status "all" shows every machine. |
| MachineManagement.MachineStatusFilterSelects | src/components/MachineManagement.tsx:179 | Choosing a status shows machines of that status only. |
| Scenarios.RegistrationScenario | src/app/page.tsx:71-82 | Registering a lathe with a monthly rule on 2024-01-01 schedules one order, `init_m1_pm1`, due 2024-02-01, and records that date on the rule. |
| Scenarios.RegisteredState | src/app/page.tsx:71-82 | That registration stores exactly the lathe, whose rule carries the 2024-02-01 due date, and exactly one work order. |
| Scenarios.FollowUpOnCompletion | src/app/page.tsx:139-150 | For that order completed on 2024-02-03, the engine emits `auto_1` for Lubrication, pending and due 2024-03-03, and the rule records both dates. |
| Scenarios.CompletionScenario | src/app/page.tsx:127-150 | Completing that order on 2024-02-03 stamps it completed and appends `auto_1`, due 2024-03-03. The rule records the execution. |
| Scenarios.UsageBelowLimitScenario | src/lib/data.ts:429-433 | Completing at 150 of 500 hours emits nothing and discards the 150 hours. |
| Scenarios.UsageAtLimitScenario | src/lib/data.ts:436-458 | Completing at 500 of 500 hours emits an order due on the completion date and resets the counter. |

Where the code and its prose description differ, the model follows the code:

- A usage item whose counter or limit is absent or 0 gets no follow-up, and its counter is not reset (src/lib/data.ts:425-427).
- Only a counter strictly below the limit is reset without a follow-up.
- Regeneration runs for every status update to `completed`, including a task that was already completed.
- A time item without a complete interval still regenerates, due on the completion date.

## Left out

- User-interface effects are not modelled: toasts, the dialogs' open/close state, the forms' reset after a submit, tab selection, rendering, and the colour helpers `getStatusColor` and `getPriorityColor` (presentation only).
- React's `setState` scheduling is not modelled, nor strict mode's double call of updater functions, which would emit a follow-up twice. Each handler is one atomic transition.
- The clock and random ids are parameters:
  - `now` stands for `new Date()`, both in the follow-up step (src/app/page.tsx:142) and in the statistics;
  - `freshId` stands for `auto_${Date.now()}`, `mp_${Date.now()}` and `machine_${…Math.random()…}`.
  - The model gives every follow-up of one status update the same `freshId`. In the source each follow-up's id comes from its own `Date.now()` call, so the ids are equal only when those calls fall in the same millisecond.
- Time zones, `toISOString` across a date-line shift, and locale-dependent formatting are not modelled. Dates are UTC calendar dates.
- Invalid or empty date strings ("Invalid Date") are out of scope: dates are always valid here.
- The `try`/`catch` in `formatDateSafely` is not modelled. Destructuring a split string cannot throw, and missing pieces render as "undefined" (`Text.Piece`).
- Floating-point arithmetic is not modelled. Durations, costs and the averages are exact reals.
- Interval and usage values are integers here; a fractional interval is not modelled.
- `toLowerCase` is modelled for the ASCII letters A–Z and the Latin-1 letters À–Þ except ×, each mapped 32 code points down. The rest of Unicode case mapping is not modelled.
- Object aliasing is not modelled. In the source, a follow-up mutates the machine object in place, and that object is shared by every list entry with the same id and by the form's copied plan array. Here each write-back is explicit and applies to the found machine (or to every machine with its id when a follow-up is emitted, as the source's `map` does).
- `handleAddMaintenanceTask` (src/app/page.tsx:172-179) is a plain append of a caller-built order under a fresh id, and is not modelled.
- The notification and report types (src/lib/types.ts:68-93), the mock data, and `DashboardOverview` are not modelled. They are display data and a presentation component.
- App.FollowUps: when several orders share the id, the contract bounds and characterises the follow-ups but does not spell out each machine's final plan. `App.FollowUpsFromFirst` and `App.UpdateTaskStatusRegenerates` state the first matching order's follow-up exactly. `App.UniqueTaskUpdate` states the whole update exactly for a unique id.
- Stats.ComputeStats: states bounds and partition facts rather than each figure's closed form. `Stats.StatsAfterAddingTask` and `Stats.StatsAfterAddingMachine` state how each figure moves when an order or a machine is added, and `Stats.Efficiency` states the efficiency ratio.
- Stats.AverageCompletionTime: the mean itself is characterised by `Stats.AverageWithinRange` (it lies within the durations' range), not as an exact quotient.
- Scheduler.UsageCompletionClearsCounter: the "no usage left" half requires a set limit. With an unset limit the source leaves any counter as it was.

=== FILE: app.dfy ===
/**
 * The dashboard page's state transitions: registering, editing and deleting machines,
 * changing a work order's status (with the automatic follow-up), and the task list's
 * search filter and upcoming view. Each handler is one transition of the pair of lists.
 */
module App {
  import opened Wrappers
  import opened Dates
  import opened Types
  import opened Seqs
  import opened Text
  import opened Scheduler
  import opened Sorting

  datatype AppState = AppState(machines: seq<Machine>, tasks: seq<MaintenanceTask>)

  /** The machine form's contents: a machine without its id and maintenance history. */
  datatype MachineData = MachineData(
    name: string,
    model: string,
    manufacturer: string,
    serialNumber: string,
    location: string,
    status: MachineStatus,
    installationDate: CivilDate,
    acquisitionDate: CivilDate,
    operatingHours: int,
    plan: seq<PlanItem>)

  /** The date handleUpdateTaskStatus stamps on every task it marks completed. */
  const CompletionStamp: CivilDate := Date(2024, 12, 9)

  // ---------------------------------------------------------------------------
  // Machines

  function NewMachine(data: MachineData, id: string): Machine {
    Machine(
      id := id,
      name := data.name,
      model := data.model,
      manufacturer := data.manufacturer,
      serialNumber := data.serialNumber,
      location := data.location,
      status := data.status,
      installationDate := data.installationDate,
      acquisitionDate := data.acquisitionDate,
      lastMaintenanceDate := None,
      nextMaintenanceDate := None,
      operatingHours := Some(data.operatingHours),
      plan := data.plan)
  }

  /**
   * handleAddMachine: the machine is appended with its plan's first due dates written back,
   * and its first work orders are appended to the tasks.
   */
  function AddMachine(st: AppState, data: MachineData, freshId: string): (r: AppState)
    ensures |r.machines| == |st.machines| + 1 && r.machines[..|st.machines|] == st.machines
    ensures var m := r.machines[|st.machines|];
      && m.id == freshId && m.name == data.name && m.model == data.model && m.location == data.location
      && m.status == data.status && m.acquisitionDate == data.acquisitionDate
      && m.operatingHours == Some(data.operatingHours)
      && m.lastMaintenanceDate.None? && m.nextMaintenanceDate.None?
      && |m.plan| == |data.plan|
      && m.manufacturer == data.manufacturer && m.serialNumber == data.serialNumber
      && m.installationDate == data.installationDate
      && (forall k :: 0 <= k < |data.plan| ==> m.plan[k].id == data.plan[k].id && m.plan[k].isActive == data.plan[k].isActive)
      && (forall k :: 0 <= k < |data.plan| ==> m.plan[k] == ScheduleItem(data.plan[k], data.acquisitionDate))
    ensures |r.tasks| == |st.tasks| + Count(data.plan, Schedulable) && r.tasks[..|st.tasks|] == st.tasks
    ensures r.tasks[|st.tasks|..] == InitialTasks(NewMachine(data, freshId))
    ensures forall k :: |st.tasks| <= k < |r.tasks| ==>
      && r.tasks[k].machineId == freshId && r.tasks[k].status == Pending && r.tasks[k].taskType == Preventive
      && RecordedIn(r.tasks[k], r.machines[|st.machines|].plan)
  {
    var m := NewMachine(data, freshId);
    InitialTasksRecordedInPlan(m);
    var stored := m.(plan := ScheduledPlan(m.plan, m.acquisitionDate));
    var added := InitialTasks(m);
    AppendedTasks(st.tasks, added);
    assert (st.tasks + added)[|st.tasks|..] == added;
    AppState(st.machines + [stored], st.tasks + added)
  }

  /** Appending keeps the old list as a prefix and puts the new elements after it. */
  lemma AppendedTasks(tasks: seq<MaintenanceTask>, added: seq<MaintenanceTask>)
    ensures (tasks + added)[..|tasks|] == tasks
    ensures forall k :: |tasks| <= k < |tasks + added| ==> (tasks + added)[k] == added[k - |tasks|]
  {
  }

  /** An item of a submitted plan that is active and whose id the current plan does not have. */
  predicate IsNewItem(item: PlanItem, current: seq<PlanItem>) {
    item.isActive && Find(current, (e: PlanItem) => e.id == item.id).None?
  }

  /** The items of an edited plan that handleUpdateMachine schedules: active, and new to the machine. */
  function NewPlanItems(plan: seq<PlanItem>, current: seq<PlanItem>): (r: seq<PlanItem>)
    ensures IsSubsequence(r, plan)
    ensures forall k :: 0 <= k < |r| ==>
      r[k] in plan && r[k].isActive && forall j :: 0 <= j < |current| ==> current[j].id != r[k].id
    ensures forall k :: (0 <= k < |plan| && plan[k].isActive && (forall j :: 0 <= j < |current| ==> current[j].id != plan[k].id)
      ==> plan[k] in r)
  {
    Filter(plan, (item: PlanItem) => IsNewItem(item, current))
  }

  /** The machine with the form's fields over it; id and maintenance history are kept. */
  function Overwrite(m: Machine, data: MachineData): Machine {
    m.(name := data.name, model := data.model, manufacturer := data.manufacturer,
       serialNumber := data.serialNumber, location := data.location, status := data.status,
       installationDate := data.installationDate, acquisitionDate := data.acquisitionDate,
       operatingHours := Some(data.operatingHours), plan := data.plan)
  }

  /** The machine after an edit: the form's fields, with the new items' first due dates written back. */
  function EditedMachine(m: Machine, data: MachineData): (r: Machine)
    ensures r.id == m.id && r.lastMaintenanceDate == m.lastMaintenanceDate && r.nextMaintenanceDate == m.nextMaintenanceDate
    ensures r.name == data.name && r.model == data.model && r.location == data.location && r.status == data.status
      && r.manufacturer == data.manufacturer && r.serialNumber == data.serialNumber
      && r.installationDate == data.installationDate
      && r.acquisitionDate == data.acquisitionDate && r.operatingHours == Some(data.operatingHours)
    ensures |r.plan| == |data.plan|
    ensures forall k :: 0 <= k < |data.plan| ==> r.plan[k].id == data.plan[k].id
    ensures forall k :: 0 <= k < |data.plan| && !IsNewItem(data.plan[k], m.plan) ==> r.plan[k] == data.plan[k]
    ensures forall k :: 0 <= k < |data.plan| && IsNewItem(data.plan[k], m.plan) ==>
      r.plan[k] == ScheduleItem(data.plan[k], data.acquisitionDate)
  {
    var plan := seq(|data.plan|, k requires 0 <= k < |data.plan| =>
      if IsNewItem(data.plan[k], m.plan) then ScheduleItem(data.plan[k], data.acquisitionDate) else data.plan[k]);
    Overwrite(m, data).(plan := plan)
  }

  /** The items of `plan` that are new to `current`; `t` is linked to one of them. */
  predicate LinksNewItem(t: MaintenanceTask, current: seq<PlanItem>, plan: seq<PlanItem>) {
    exists j :: 0 <= j < |plan| && IsNewItem(plan[j], current) && t.preventiveItemId == Some(plan[j].id)
  }

  /** The first work orders an edit of machine `m` schedules: those of its new items only. */
  function EditTasks(m: Machine, data: MachineData): (r: seq<MaintenanceTask>)
    ensures forall k :: 0 <= k < |r| ==>
      r[k].machineId == m.id && r[k].status == Pending && LinksNewItem(r[k], m.plan, data.plan)
    ensures var items := Filter(NewPlanItems(data.plan, m.plan), Schedulable);
      && |r| == |items|
      && forall k :: 0 <= k < |r| ==>
        && r[k].preventiveItemId == Some(items[k].id) && r[k].id == InitialTaskId(m.id, items[k].id)
        && Some(r[k].scheduledDate) == InitialDate(items[k], data.acquisitionDate)
        && r[k].title == items[k].taskName && r[k].description == items[k].description
    ensures forall k :: 0 <= k < |r| ==>
      && r[k].taskType == Preventive && r[k].priority == Medium && r[k].estimatedDuration == 2.0
      && r[k].machineName == data.name && r[k].completedDate.None? && r[k].actualDuration.None?
      && r[k].assignedTo.None? && r[k].cost.None? && r[k].notes.None?
  {
    var r := InitialTasks(Overwrite(m, data).(plan := NewPlanItems(data.plan, m.plan)));
    NewItemsLinked(m, data, r);
    r
  }

  /** Every order linked to a schedulable new item, in turn, links to an item new to the machine. */
  lemma NewItemsLinked(m: Machine, data: MachineData, r: seq<MaintenanceTask>)
    requires var items := Filter(NewPlanItems(data.plan, m.plan), Schedulable);
      |r| == |items| && forall k :: 0 <= k < |r| ==> r[k].preventiveItemId == Some(items[k].id)
    ensures forall k :: 0 <= k < |r| ==> LinksNewItem(r[k], m.plan, data.plan)
  {
    var newItems := NewPlanItems(data.plan, m.plan);
    var items := Filter(newItems, Schedulable);
    forall k | 0 <= k < |r|
      ensures LinksNewItem(r[k], m.plan, data.plan)
    {
      var item := items[k];
      assert item in newItems;
      var j :| 0 <= j < |data.plan| && data.plan[j] == item;
      assert Find(m.plan, (e: PlanItem) => e.id == item.id).None?;
      assert IsNewItem(data.plan[j], m.plan);
    }
  }

  /** Some machine with id `id` has `t` among the work orders an edit to `plan` schedules for it. */
  predicate ScheduledByEdit(t: MaintenanceTask, machines: seq<Machine>, id: string, plan: seq<PlanItem>) {
    exists i :: 0 <= i < |machines| && machines[i].id == id && LinksNewItem(t, machines[i].plan, plan)
  }

  lemma ScheduledByEditTail(t: MaintenanceTask, machines: seq<Machine>, id: string, plan: seq<PlanItem>)
    requires |machines| > 0 && ScheduledByEdit(t, machines[1..], id, plan)
    ensures ScheduledByEdit(t, machines, id, plan)
  {
    var i :| 0 <= i < |machines[1..]| && machines[1..][i].id == id && LinksNewItem(t, machines[1..][i].plan, plan);
    assert machines[i + 1] == machines[1..][i];
  }

  /** The work orders scheduled by editing every machine with id `id`, in machine order. */
  function EditTasksAll(machines: seq<Machine>, id: string, data: MachineData): (r: seq<MaintenanceTask>)
    ensures (forall i :: 0 <= i < |machines| ==> machines[i].id != id) ==> r == []
    ensures forall k :: 0 <= k < |r| ==>
      r[k].machineId == id && r[k].status == Pending && ScheduledByEdit(r[k], machines, id, data.plan)
    decreases |machines|
  {
    if |machines| == 0 then []
    else
      var head := if machines[0].id == id then EditTasks(machines[0], data) else [];
      var rest := EditTasksAll(machines[1..], id, data);
      AppendedTasks(head, rest);
      forall k | 0 <= k < |rest|
        ensures ScheduledByEdit(rest[k], machines, id, data.plan)
      {
        ScheduledByEditTail(rest[k], machines, id, data.plan);
      }
      head + rest
  }

  /**
   * handleUpdateMachine: every machine with the id takes the form's fields, and work orders are
   * scheduled for the plan items that are active and new to that machine; nothing else changes.
   */
  function UpdateMachine(st: AppState, id: string, data: MachineData): (r: AppState)
    ensures |r.machines| == |st.machines|
    ensures forall i :: 0 <= i < |st.machines| && st.machines[i].id != id ==> r.machines[i] == st.machines[i]
    ensures forall i :: 0 <= i < |st.machines| && st.machines[i].id == id ==> r.machines[i] == EditedMachine(st.machines[i], data)
    ensures |r.tasks| >= |st.tasks| && r.tasks[..|st.tasks|] == st.tasks
    ensures forall k :: |st.tasks| <= k < |r.tasks| ==>
      r.tasks[k].machineId == id && r.tasks[k].status == Pending && ScheduledByEdit(r.tasks[k], st.machines, id, data.plan)
    ensures (forall i :: 0 <= i < |st.machines| ==> st.machines[i].id != id) ==> r == st
  {
    var machines := seq(|st.machines|, i requires 0 <= i < |st.machines| =>
      if st.machines[i].id == id then EditedMachine(st.machines[i], data) else st.machines[i]);
    var added := EditTasksAll(st.machines, id, data);
    AppendedTasks(st.tasks, added);
    assert (forall i :: 0 <= i < |st.machines| ==> st.machines[i].id != id) ==> machines == st.machines && st.tasks + added == st.tasks;
    AppState(machines, st.tasks + added)
  }

  /** With one machine carrying the id, the edit schedules that machine's work orders only. */
  lemma {:induction false} EditTasksAllUnique(machines: seq<Machine>, i: nat, data: MachineData)
    requires i < |machines|
    requires forall j :: 0 <= j < |machines| && j != i ==> machines[j].id != machines[i].id
    ensures EditTasksAll(machines, machines[i].id, data) == EditTasks(machines[i], data)
    decreases |machines|
  {
    var id := machines[i].id;
    if i > 0 {
      assert machines[1..][i - 1] == machines[i];
      EditTasksAllUnique(machines[1..], i - 1, data);
      assert EditTasksAll(machines, id, data) == [] + EditTasksAll(machines[1..], id, data);
    } else {
      assert forall j :: 0 <= j < |machines[1..]| ==> machines[1..][j].id != id;
      assert EditTasksAll(machines[1..], id, data) == [];
      assert EditTasksAll(machines, id, data) == EditTasks(machines[0], data) + [];
    }
  }

  /**
   * Editing the one machine with an id appends, after the existing orders, one first work order
   * for each active item whose id the machine's plan did not have and that has a usable schedule,
   * in the order of the submitted plan, each due on the item's first date from the form's acquisition date.
   */
  lemma UpdateMachineSchedulesNewItems(st: AppState, i: nat, data: MachineData)
    requires i < |st.machines|
    requires forall j :: 0 <= j < |st.machines| && j != i ==> st.machines[j].id != st.machines[i].id
    ensures UpdateMachine(st, st.machines[i].id, data).tasks == st.tasks + EditTasks(st.machines[i], data)
    ensures var r := UpdateMachine(st, st.machines[i].id, data);
      var items := Filter(NewPlanItems(data.plan, st.machines[i].plan), Schedulable);
      && |r.tasks| == |st.tasks| + |items|
      && forall k :: 0 <= k < |items| ==>
        && r.tasks[|st.tasks| + k].preventiveItemId == Some(items[k].id)
        && r.tasks[|st.tasks| + k].machineId == st.machines[i].id
        && Some(r.tasks[|st.tasks| + k].scheduledDate) == InitialDate(items[k], data.acquisitionDate)
  {
    var id := st.machines[i].id;
    EditTasksAllUnique(st.machines, i, data);
    var added := EditTasks(st.machines[i], data);
    var r := UpdateMachine(st, id, data);
    assert r.tasks == st.tasks + added;
    forall k | 0 <= k < |added|
      ensures r.tasks[|st.tasks| + k] == added[k]
    {
    }
  }

  /** handleDeleteMachine: the machine goes, and so does every work order of it. */
  function DeleteMachine(st: AppState, id: string): (r: AppState)
    ensures forall i :: 0 <= i < |r.machines| ==> r.machines[i].id != id
    ensures forall k :: 0 <= k < |r.tasks| ==> r.tasks[k].machineId != id
    ensures IsSubsequence(r.machines, st.machines) && IsSubsequence(r.tasks, st.tasks)
    ensures forall i :: 0 <= i < |st.machines| && st.machines[i].id != id ==> st.machines[i] in r.machines
    ensures forall k :: 0 <= k < |st.tasks| && st.tasks[k].machineId != id ==> st.tasks[k] in r.tasks
    ensures |r.machines| + Count(st.machines, (m: Machine) => m.id == id) == |st.machines|
    ensures |r.tasks| + Count(st.tasks, (t: MaintenanceTask) => t.machineId == id) == |st.tasks|
  {
    var keep := (m: Machine) => m.id != id;
    var keepTask := (t: MaintenanceTask) => t.machineId != id;
    CountComplement(st.machines, keep, (m: Machine) => m.id == id);
    CountComplement(st.tasks, keepTask, (t: MaintenanceTask) => t.machineId == id);
    AppState(Filter(st.machines, keep), Filter(st.tasks, keepTask))
  }

  /** Deleting a machine twice is deleting it once. */
  lemma DeleteMachineIdempotent(st: AppState, id: string)
    ensures DeleteMachine(DeleteMachine(st, id), id) == DeleteMachine(st, id)
  {
    var once := DeleteMachine(st, id);
    FilterAll(once.machines, (m: Machine) => m.id != id);
    FilterAll(once.tasks, (t: MaintenanceTask) => t.machineId != id);
  }

  /** Deleting an id nothing carries changes nothing. */
  lemma DeleteUnknownMachine(st: AppState, id: string)
    requires forall i :: 0 <= i < |st.machines| ==> st.machines[i].id != id
    requires forall k :: 0 <= k < |st.tasks| ==> st.tasks[k].machineId != id
    ensures DeleteMachine(st, id) == st
  {
    FilterAll(st.machines, (m: Machine) => m.id != id);
    FilterAll(st.tasks, (t: MaintenanceTask) => t.machineId != id);
  }

  // ---------------------------------------------------------------------------
  // Task status and the automatic follow-up

  /** The task with its new status: completing stamps the fixed completion date, any other status clears it. */
  function WithStatus(t: MaintenanceTask, status: TaskStatus): (r: MaintenanceTask)
    ensures r.status == status
    ensures r.completedDate.Some? <==> status == Completed
    ensures r.completedDate.Some? ==> r.completedDate.value == CompletionStamp
    ensures r.(status := t.status, completedDate := t.completedDate) == t
  {
    t.(status := status, completedDate := if status == Completed then Some(CompletionStamp) else None)
  }

  /** Every task with the id gets the new status; the others are kept as they are. */
  function MarkStatus(tasks: seq<MaintenanceTask>, taskId: string, status: TaskStatus): (r: seq<MaintenanceTask>)
    ensures |r| == |tasks|
    ensures forall i :: 0 <= i < |tasks| && tasks[i].id != taskId ==> r[i] == tasks[i]
    ensures forall i :: 0 <= i < |tasks| && tasks[i].id == taskId ==> r[i] == WithStatus(tasks[i], status)
  {
    seq(|tasks|, i requires 0 <= i < |tasks| => if tasks[i].id == taskId then WithStatus(tasks[i], status) else tasks[i])
  }

  /** An id no task carries leaves the list as it is. */
  lemma MarkStatusUnmatched(tasks: seq<MaintenanceTask>, taskId: string, status: TaskStatus)
    ensures (forall i :: 0 <= i < |tasks| ==> tasks[i].id != taskId) ==> MarkStatus(tasks, taskId, status) == tasks
  {
  }

  /** A task whose update asks the engine for a follow-up: completed, preventive and linked to a plan item. */
  predicate AsksForFollowUp(t: MaintenanceTask) {
    t.status == Completed && t.taskType == Preventive && IsSetText(t.preventiveItemId)
  }

  function MachineIndex(machines: seq<Machine>, id: string): (r: Option<nat>)
    ensures r.Some? ==> r.value < |machines| && machines[r.value].id == id
    ensures r.Some? ==> forall j :: 0 <= j < r.value ==> machines[j].id != id
    ensures r.None? <==> forall i :: 0 <= i < |machines| ==> machines[i].id != id
  {
    FindIndex(machines, (m: Machine) => m.id == id)
  }

  /**
   * `after` is `before` with the item `n` links to having recorded it: executed on `now`,
   * next due on `n`'s date, which is one interval of the item (as it was) after `now`.
   */
  predicate RecordsFollowUp(after: Machine, before: Machine, n: MaintenanceTask, now: CivilDate) {
    && |after.plan| == |before.plan|
    && exists j :: (0 <= j < |before.plan| && Some(after.plan[j].id) == n.preventiveItemId
      && after.plan[j].lastExecutionDate == Some(now)
      && after.plan[j].nextScheduledDate == Some(n.scheduledDate)
      && n.scheduledDate == NextMaintenanceDate(before.plan[j], now))
  }

  /**
   * The follow-up step for one updated task: the engine runs on the task's machine with the
   * current date. An emitted follow-up puts the updated machine in place of every machine
   * with its id; otherwise only the found machine takes the item's bookkeeping.
   */
  function FollowUp(t: MaintenanceTask, machines: seq<Machine>, now: CivilDate, freshId: string)
    : (r: (seq<Machine>, Option<MaintenanceTask>))
    ensures |r.0| == |machines|
    ensures forall j :: 0 <= j < |machines| ==> r.0[j].id == machines[j].id
    ensures forall j :: 0 <= j < |machines| && machines[j].id != t.machineId ==> r.0[j] == machines[j]
    ensures !AsksForFollowUp(t) || MachineIndex(machines, t.machineId).None? ==> r == (machines, None)
    ensures r.1.Some? ==> (AsksForFollowUp(t) && MachineIndex(machines, t.machineId).Some?
      && r.1.value.id == freshId && r.1.value.machineId == t.machineId && r.1.value.status == Pending
      && r.1.value.taskType == Preventive && r.1.value.preventiveItemId == t.preventiveItemId
      && var i := MachineIndex(machines, t.machineId).value;
         RecordsFollowUp(r.0[i], machines[i], r.1.value, now))
    ensures AsksForFollowUp(t) && MachineIndex(machines, t.machineId).Some? ==>
      var i := MachineIndex(machines, t.machineId).value;
      var g := GenerateNextTask(t, machines[i], now, freshId);
      r.1 == g.1 && r.0[i] == g.0
    ensures r.1.Some? ==>
      var i := MachineIndex(machines, t.machineId).value;
      forall j :: 0 <= j < |machines| && machines[j].id == t.machineId ==> r.0[j] == r.0[i]
    ensures r.1.None? && MachineIndex(machines, t.machineId).Some? ==>
      var i := MachineIndex(machines, t.machineId).value;
      forall j :: 0 <= j < |machines| && j != i ==> r.0[j] == machines[j]
  {
    if !AsksForFollowUp(t) then (machines, None)
    else match MachineIndex(machines, t.machineId)
      case None => (machines, None)
      case Some(i) =>
        var g := GenerateNextTask(t, machines[i], now, freshId);
        if g.1.Some? then
          var j := LinkedItemIndex(t, machines[i]).value;
          var updated := seq(|machines|, k requires 0 <= k < |machines| => if machines[k].id == machines[i].id then g.0 else machines[k]);
          assert updated[i] == g.0 && g.0.plan[j].id == machines[i].plan[j].id;
          (updated, g.1)
        else
          (machines[i := g.0], None)
  }

  /** `Some(x)` as the one-element sequence, `None` as the empty one. */
  function AsSeq<T>(o: Option<T>): (r: seq<T>)
    ensures |r| <= 1 && (o.Some? <==> |r| == 1) && (o.Some? ==> r[0] == o.value)
  {
    if o.Some? then [o.value] else []
  }

  function HasId(taskId: string): MaintenanceTask -> bool {
    (t: MaintenanceTask) => t.id == taskId
  }

  /** `n` is a follow-up of some task with the id whose new status asks for one: same machine, same plan item. */
  predicate FollowsUpOn(n: MaintenanceTask, tasks: seq<MaintenanceTask>, taskId: string, status: TaskStatus) {
    exists i :: (0 <= i < |tasks| && tasks[i].id == taskId && AsksForFollowUp(WithStatus(tasks[i], status))
      && n.machineId == tasks[i].machineId && n.preventiveItemId == tasks[i].preventiveItemId)
  }

  lemma FollowsUpOnTail(n: MaintenanceTask, tasks: seq<MaintenanceTask>, taskId: string, status: TaskStatus)
    requires |tasks| > 0 && FollowsUpOn(n, tasks[1..], taskId, status)
    ensures FollowsUpOn(n, tasks, taskId, status)
  {
    var i :| (0 <= i < |tasks[1..]| && tasks[1..][i].id == taskId && AsksForFollowUp(WithStatus(tasks[1..][i], status))
      && n.machineId == tasks[1..][i].machineId && n.preventiveItemId == tasks[1..][i].preventiveItemId);
    assert tasks[i + 1] == tasks[1..][i];
  }

  /** The properties every emitted follow-up has. */
  predicate IsFollowUp(n: MaintenanceTask, tasks: seq<MaintenanceTask>, taskId: string, status: TaskStatus, freshId: string) {
    n.id == freshId && n.status == Pending && n.taskType == Preventive && FollowsUpOn(n, tasks, taskId, status)
  }

  /** The follow-up steps for every task with the id, in task order, threading the machines through. */
  function FollowUps(tasks: seq<MaintenanceTask>, taskId: string, status: TaskStatus, machines: seq<Machine>, now: CivilDate, freshId: string)
    : (r: (seq<Machine>, seq<MaintenanceTask>))
    ensures |r.0| == |machines|
    ensures forall j :: 0 <= j < |machines| ==> r.0[j].id == machines[j].id
    ensures |r.1| <= Count(tasks, HasId(taskId))
    ensures (status != Completed || forall i :: 0 <= i < |tasks| ==> tasks[i].id != taskId) ==> r == (machines, [])
    ensures forall k :: 0 <= k < |r.1| ==> IsFollowUp(r.1[k], tasks, taskId, status, freshId)
    decreases |tasks|
  {
    if |tasks| == 0 then (machines, [])
    else if tasks[0].id != taskId then
      var rest := FollowUps(tasks[1..], taskId, status, machines, now, freshId);
      CountCons(tasks, HasId(taskId));
      forall k | 0 <= k < |rest.1|
        ensures IsFollowUp(rest.1[k], tasks, taskId, status, freshId)
      {
        FollowsUpOnTail(rest.1[k], tasks, taskId, status);
      }
      rest
    else
      var step := FollowUp(WithStatus(tasks[0], status), machines, now, freshId);
      FollowUpOfTask(tasks, taskId, status, machines, now, freshId);
      var rest := FollowUps(tasks[1..], taskId, status, step.0, now, freshId);
      FollowUpsBound(tasks, taskId, step.1, rest.1);
      FollowUpsKinds(tasks, taskId, status, freshId, step.1, rest.1);
      (rest.0, AsSeq(step.1) + rest.1)
  }

  /** The follow-up step of the first task, when it has the id, emits a follow-up of it, and only on completion. */
  lemma FollowUpOfTask(tasks: seq<MaintenanceTask>, taskId: string, status: TaskStatus, machines: seq<Machine>, now: CivilDate, freshId: string)
    requires |tasks| > 0 && tasks[0].id == taskId
    ensures var step := FollowUp(WithStatus(tasks[0], status), machines, now, freshId);
      && (step.1.Some? ==> IsFollowUp(step.1.value, tasks, taskId, status, freshId))
      && (status != Completed ==> step == (machines, None))
  {
    var step := FollowUp(WithStatus(tasks[0], status), machines, now, freshId);
    if step.1.Some? {
      assert FollowsUpOn(step.1.value, tasks, taskId, status) by {
        assert AsksForFollowUp(WithStatus(tasks[0], status));
      }
    }
  }

  /** One step of the fold keeps the follow-ups within the number of tasks with the id. */
  lemma FollowUpsBound(tasks: seq<MaintenanceTask>, taskId: string, head: Option<MaintenanceTask>, rest: seq<MaintenanceTask>)
    requires |tasks| > 0
    requires head.Some? ==> tasks[0].id == taskId
    requires |rest| <= Count(tasks[1..], HasId(taskId))
    ensures |AsSeq(head) + rest| <= Count(tasks, HasId(taskId))
  {
    CountCons(tasks, HasId(taskId));
  }

  /** One step of the fold keeps every follow-up a follow-up of the longer list. */
  lemma FollowUpsKinds(tasks: seq<MaintenanceTask>, taskId: string, status: TaskStatus, freshId: string,
                       head: Option<MaintenanceTask>, rest: seq<MaintenanceTask>)
    requires |tasks| > 0
    requires head.Some? ==> IsFollowUp(head.value, tasks, taskId, status, freshId)
    requires forall k :: 0 <= k < |rest| ==> IsFollowUp(rest[k], tasks[1..], taskId, status, freshId)
    ensures forall k :: 0 <= k < |AsSeq(head) + rest| ==> IsFollowUp((AsSeq(head) + rest)[k], tasks, taskId, status, freshId)
  {
    var all := AsSeq(head) + rest;
    forall k | 0 <= k < |all|
      ensures IsFollowUp(all[k], tasks, taskId, status, freshId)
    {
      if k < |AsSeq(head)| {
        assert all[k] == head.value;
      } else {
        assert all[k] == rest[k - |AsSeq(head)|];
        FollowsUpOnTail(all[k], tasks, taskId, status);
      }
    }
  }

  /**
   * handleUpdateTaskStatus: the tasks with the id take the new status, and the follow-ups the
   * engine emits for them are appended after the updated list.
   */
  function UpdateTaskStatus(st: AppState, taskId: string, status: TaskStatus, now: CivilDate, freshId: string): (r: AppState)
    ensures |r.machines| == |st.machines|
    ensures forall j :: 0 <= j < |st.machines| ==> r.machines[j].id == st.machines[j].id
    ensures |st.tasks| <= |r.tasks| <= |st.tasks| + Count(st.tasks, HasId(taskId))
    ensures forall i :: 0 <= i < |st.tasks| && st.tasks[i].id != taskId ==> r.tasks[i] == st.tasks[i]
    ensures forall i :: 0 <= i < |st.tasks| && st.tasks[i].id == taskId ==>
      && r.tasks[i].status == status
      && (r.tasks[i].completedDate == if status == Completed then Some(CompletionStamp) else None)
      && r.tasks[i].(status := st.tasks[i].status, completedDate := st.tasks[i].completedDate) == st.tasks[i]
    ensures forall k :: |st.tasks| <= k < |r.tasks| ==> IsFollowUp(r.tasks[k], st.tasks, taskId, status, freshId)
    ensures status != Completed ==> r.machines == st.machines && |r.tasks| == |st.tasks|
    ensures (forall i :: 0 <= i < |st.tasks| ==> st.tasks[i].id != taskId) ==> r == st
  {
    var f := FollowUps(st.tasks, taskId, status, st.machines, now, freshId);
    var marked := MarkStatus(st.tasks, taskId, status);
    AppendedTasks(marked, f.1);
    MarkStatusUnmatched(st.tasks, taskId, status);
    AppState(f.0, marked + f.1)
  }

  /** When the id picks out exactly one task, the update is that task's single follow-up step. */
  lemma {:induction false} FollowUpsSingle(tasks: seq<MaintenanceTask>, i: nat, taskId: string, status: TaskStatus,
                                          machines: seq<Machine>, now: CivilDate, freshId: string)
    requires i < |tasks| && tasks[i].id == taskId
    requires forall j :: 0 <= j < |tasks| && j != i ==> tasks[j].id != taskId
    ensures var step := FollowUp(WithStatus(tasks[i], status), machines, now, freshId);
      FollowUps(tasks, taskId, status, machines, now, freshId) == (step.0, AsSeq(step.1))
    decreases |tasks|
  {
    var r := FollowUps(tasks, taskId, status, machines, now, freshId);
    if i > 0 {
      FollowUpsSingle(tasks[1..], i - 1, taskId, status, machines, now, freshId);
      assert r == FollowUps(tasks[1..], taskId, status, machines, now, freshId);
    } else {
      var step := FollowUp(WithStatus(tasks[0], status), machines, now, freshId);
      assert forall j :: 0 <= j < |tasks[1..]| ==> tasks[1..][j].id != taskId;
      var rest := FollowUps(tasks[1..], taskId, status, step.0, now, freshId);
      assert rest == (step.0, []);
      assert r == (rest.0, AsSeq(step.1) + rest.1);
      assert AsSeq(step.1) + [] == AsSeq(step.1);
    }
  }

  /**
   * Completing a task whose id is unique: the list keeps its length and order and gains at most
   * the one follow-up of that task, and the machines are those of its single follow-up step.
   */
  lemma UniqueTaskUpdate(st: AppState, i: nat, status: TaskStatus, now: CivilDate, freshId: string)
    requires i < |st.tasks|
    requires forall j :: 0 <= j < |st.tasks| && j != i ==> st.tasks[j].id != st.tasks[i].id
    ensures var taskId := st.tasks[i].id;
      var step := FollowUp(WithStatus(st.tasks[i], status), st.machines, now, freshId);
      UpdateTaskStatus(st, taskId, status, now, freshId)
        == AppState(step.0, st.tasks[i := WithStatus(st.tasks[i], status)] + AsSeq(step.1))
  {
    var taskId := st.tasks[i].id;
    FollowUpsSingle(st.tasks, i, taskId, status, st.machines, now, freshId);
    assert MarkStatus(st.tasks, taskId, status) == st.tasks[i := WithStatus(st.tasks[i], status)];
  }

  /** The orders before the first one with the id contribute nothing; the fold starts at that order. */
  lemma {:induction false} FollowUpsFromFirst(tasks: seq<MaintenanceTask>, i: nat, taskId: string, status: TaskStatus,
                                             machines: seq<Machine>, now: CivilDate, freshId: string)
    requires i < |tasks| && tasks[i].id == taskId
    requires forall j :: 0 <= j < i ==> tasks[j].id != taskId
    ensures var step := FollowUp(WithStatus(tasks[i], status), machines, now, freshId);
      var rest := FollowUps(tasks[i + 1..], taskId, status, step.0, now, freshId);
      FollowUps(tasks, taskId, status, machines, now, freshId) == (rest.0, AsSeq(step.1) + rest.1)
    decreases i
  {
    if i > 0 {
      FollowUpsFromFirst(tasks[1..], i - 1, taskId, status, machines, now, freshId);
      assert tasks[1..][i - 1] == tasks[i] && tasks[1..][i..] == tasks[i + 1..];
    }
  }

  /**
   * Completing the first order with an id, when that order is preventive and linked, its machine
   * exists and the linked item regenerates, appends the follow-up right after the updated list:
   * due one interval of the item after the current date, on the same machine and item.
   */
  lemma UpdateTaskStatusRegenerates(st: AppState, i: nat, status: TaskStatus, now: CivilDate, freshId: string, mi: nat, j: nat)
    requires i < |st.tasks|
    requires forall k :: 0 <= k < i ==> st.tasks[k].id != st.tasks[i].id
    requires AsksForFollowUp(WithStatus(st.tasks[i], status))
    requires MachineIndex(st.machines, st.tasks[i].machineId) == Some(mi)
    requires LinkedItemIndex(WithStatus(st.tasks[i], status), st.machines[mi]) == Some(j)
    requires Regenerates(st.machines[mi].plan[j])
    ensures var r := UpdateTaskStatus(st, st.tasks[i].id, status, now, freshId);
      && |r.tasks| > |st.tasks|
      && r.tasks[|st.tasks|].id == freshId
      && r.tasks[|st.tasks|].machineId == st.tasks[i].machineId
      && r.tasks[|st.tasks|].preventiveItemId == st.tasks[i].preventiveItemId
      && r.tasks[|st.tasks|].status == Pending
      && r.tasks[|st.tasks|].scheduledDate == NextMaintenanceDate(st.machines[mi].plan[j], now)
  {
    var taskId := st.tasks[i].id;
    var done := WithStatus(st.tasks[i], status);
    FollowUpsFromFirst(st.tasks, i, taskId, status, st.machines, now, freshId);
    var step := FollowUp(done, st.machines, now, freshId);
    var g := GenerateNextTask(done, st.machines[mi], now, freshId);
    assert step.1 == g.1 && g.1.Some?;
    var f := FollowUps(st.tasks, taskId, status, st.machines, now, freshId);
    assert f.1[0] == g.1.value;
    var marked := MarkStatus(st.tasks, taskId, status);
    assert UpdateTaskStatus(st, taskId, status, now, freshId).tasks == marked + f.1;
    assert (marked + f.1)[|st.tasks|] == f.1[0];
  }

  // ---------------------------------------------------------------------------
  // Task list views

  /** The search box matches a task's title or machine name, ignoring case. */
  predicate MatchesTaskSearch(t: MaintenanceTask, search: string) {
    Contains(Lower(t.title), Lower(search)) || Contains(Lower(t.machineName), Lower(search))
  }

  /** A drop-down filter: "all" lets everything through, any other choice only its own literal. */
  predicate MatchesChoice(choice: string, literal: string) {
    choice == "all" || literal == choice
  }

  predicate TaskShown(t: MaintenanceTask, search: string, statusFilter: string, priorityFilter: string) {
    && MatchesTaskSearch(t, search)
    && MatchesChoice(statusFilter, TaskStatusLiteral(t.status))
    && MatchesChoice(priorityFilter, TaskPriorityLiteral(t.priority))
  }

  /** filteredTasks: the tasks the search and the two drop-downs let through, in list order. */
  function FilteredTasks(tasks: seq<MaintenanceTask>, search: string, statusFilter: string, priorityFilter: string)
    : (r: seq<MaintenanceTask>)
    ensures IsSubsequence(r, tasks)
    ensures forall k :: 0 <= k < |r| ==> TaskShown(r[k], search, statusFilter, priorityFilter)
    ensures forall i :: 0 <= i < |tasks| && TaskShown(tasks[i], search, statusFilter, priorityFilter) ==> tasks[i] in r
    ensures |r| + Count(tasks, (t: MaintenanceTask) => !TaskShown(t, search, statusFilter, priorityFilter)) == |tasks|
  {
    var shown := (t: MaintenanceTask) => TaskShown(t, search, statusFilter, priorityFilter);
    CountComplement(tasks, shown, (t: MaintenanceTask) => !TaskShown(t, search, statusFilter, priorityFilter));
    Filter(tasks, shown)
  }

  /** An empty search with both drop-downs on "all" shows the whole list. */
  lemma UnfilteredTaskList(tasks: seq<MaintenanceTask>)
    ensures FilteredTasks(tasks, "", "all", "all") == tasks
  {
    forall i | 0 <= i < |tasks|
      ensures TaskShown(tasks[i], "", "all", "all")
    {
      ContainsEmpty(Lower(tasks[i].title));
    }
    FilterAll(tasks, (t: MaintenanceTask) => TaskShown(t, "", "all", "all"));
  }

  /** Choosing a status in the drop-down shows tasks of that status only. */
  lemma StatusFilterSelects(tasks: seq<MaintenanceTask>, search: string, status: TaskStatus, priorityFilter: string)
    ensures var r := FilteredTasks(tasks, search, TaskStatusLiteral(status), priorityFilter);
      forall k :: 0 <= k < |r| ==> r[k].status == status
  {
    LiteralsRoundTrip();
  }

  /** A status choice that is neither "all" nor a status literal shows nothing. */
  lemma UnknownStatusShowsNothing(tasks: seq<MaintenanceTask>, search: string, statusFilter: string, priorityFilter: string)
    requires statusFilter != "all" && ParseTaskStatus(statusFilter).None?
    ensures FilteredTasks(tasks, search, statusFilter, priorityFilter) == []
  {
    LiteralsRoundTrip();
    forall i | 0 <= i < |tasks|
      ensures !TaskShown(tasks[i], search, statusFilter, priorityFilter)
    {
      assert ParseTaskStatus(TaskStatusLiteral(tasks[i].status)) == Some(tasks[i].status);
    }
    FilterNone(tasks, (t: MaintenanceTask) => TaskShown(t, search, statusFilter, priorityFilter));
  }

  predicate IsUpcoming(t: MaintenanceTask) {
    t.status == Pending || t.status == Overdue
  }

  function DueDay(t: MaintenanceTask): int {
    Ordinal(t.scheduledDate)
  }

  /** upcomingTasks: the pending and overdue work orders, earliest due date first. */
  function UpcomingTasks(tasks: seq<MaintenanceTask>): (r: seq<MaintenanceTask>)
    ensures forall i, j :: 0 <= i < j < |r| ==> DateLe(r[i].scheduledDate, r[j].scheduledDate)
    ensures multiset(r) == multiset(Filter(tasks, IsUpcoming))
    ensures forall k :: 0 <= k < |r| ==> IsUpcoming(r[k])
    ensures forall i :: 0 <= i < |tasks| && IsUpcoming(tasks[i]) ==> tasks[i] in r
  {
    var due := Filter(tasks, IsUpcoming);
    var r := SortBy(due, DueDay);
    forall k | 0 <= k < |r|
      ensures IsUpcoming(r[k])
    {
      SortByKeepsElements(due, DueDay, r[k]);
    }
    forall i | 0 <= i < |tasks| && IsUpcoming(tasks[i])
      ensures tasks[i] in r
    {
      SortByKeepsElements(due, DueDay, tasks[i]);
    }
    r
  }

  /** Work orders due on the same day keep their list order in the upcoming view (the sort is stable). */
  lemma UpcomingTasksStable(tasks: seq<MaintenanceTask>, day: int)
    ensures WithKey(UpcomingTasks(tasks), DueDay, day) == WithKey(Filter(tasks, IsUpcoming), DueDay, day)
  {
    SortByStable(Filter(tasks, IsUpcoming), DueDay, day);
  }
}

=== FILE: dates.dfy ===
/**
 * Calendar dates with the rollover arithmetic of JavaScript's `Date` in UTC.
 *
 * A date is a civil (year, month, day) triple of the proleptic Gregorian calendar.
 * `setDate`, `setMonth` and `setFullYear` accept out-of-range day and month values and
 * normalise them into a valid date (ECMAScript `MakeDay`); `Walk` models that
 * normalisation, and `Ordinal` (a day number) models the time value `getTime()` orders by.
 */
module Dates {

  datatype Date = Date(year: int, month: int, day: int)

  predicate IsLeapYear(y: int) {
    y % 4 == 0 && (y % 100 != 0 || y % 400 == 0)
  }

  function DaysInMonth(y: int, m: int): (n: int)
    requires 1 <= m <= 12
    ensures 28 <= n <= 31
  {
    if m == 2 then (if IsLeapYear(y) then 29 else 28)
    else if m == 4 || m == 6 || m == 9 || m == 11 then 30
    else 31
  }

  predicate IsValid(d: Date) {
    1 <= d.month <= 12 && 1 <= d.day <= DaysInMonth(d.year, d.month)
  }

  /** A date that exists on the calendar. */
  type CivilDate = d: Date | IsValid(d) witness Date(1970, 1, 1)

  /** Months counted from January of year 0: the month of `d` is `MonthIndex(d) % 12 + 1`. */
  function MonthIndex(d: Date): int {
    12 * d.year + d.month - 1
  }

  /** Length of the month with the given month index. */
  function MonthLength(k: int): int {
    DaysInMonth(k / 12, k % 12 + 1)
  }

  /**
   * The date `d - 1` days after the first day of month `k`: an out-of-range day
   * overflows into the following months or borrows from the preceding ones.
   */
  function Walk(k: int, d: int): (r: CivilDate)
    ensures 1 <= d <= MonthLength(k) ==> MonthIndex(r) == k && r.day == d
    decreases if d < 1 then 1 - d else 0, if d < 1 then 0 else d
  {
    if d < 1 then Walk(k - 1, d + MonthLength(k - 1))
    else if d > MonthLength(k) then Walk(k + 1, d - MonthLength(k))
    else Date(k / 12, k % 12 + 1, d)
  }

  /** Days before January 1st of year `y`, counted so that 0001-01-01 has ordinal 1. */
  function DaysBeforeYear(y: int): int {
    var p := y - 1;
    365 * p + p / 4 - p / 100 + p / 400
  }

  function DaysBeforeMonth(y: int, m: int): int
    requires 1 <= m <= 12
  {
    var table := [0, 31, 59, 90, 120, 151, 181, 212, 243, 273, 304, 334];
    table[m - 1] + (if m > 2 && IsLeapYear(y) then 1 else 0)
  }

  /** Days before the first day of the month with index `k`. */
  function DaysBeforeMonthIndex(k: int): int {
    DaysBeforeYear(k / 12) + DaysBeforeMonth(k / 12, k % 12 + 1)
  }

  /** Day number of a date: consecutive dates have consecutive ordinals. */
  function Ordinal(d: CivilDate): int {
    DaysBeforeYear(d.year) + DaysBeforeMonth(d.year, d.month) + d.day
  }

  /** `a` is not later than `b`, compared as `getTime()` values. */
  predicate DateLe(a: CivilDate, b: CivilDate) {
    Ordinal(a) <= Ordinal(b)
  }

  lemma MulAtLeast(k: int, n: int)
    requires 0 < k && 1 <= n
    ensures k * n >= k
  {
    assert k * n == k * (n - 1) + k;
  }

  /** Quotient and remainder of `a` by a positive constant are determined by any decomposition. */
  lemma DivUnique(a: int, k: int, q: int, r: int)
    requires 0 < k && 0 <= r < k && a == k * q + r
    ensures a / k == q && a % k == r
  {
    var q0, r0 := a / k, a % k;
    assert k * (q - q0) == r0 - r;
    if q0 < q {
      MulAtLeast(k, q - q0);
    } else if q0 > q {
      MulAtLeast(k, q0 - q);
    }
  }

  /** Going from `y - 1` to `y` steps the quotient by `k` exactly when `k` divides `y`. */
  lemma DivStep(y: int, k: int)
    requires 0 < k
    ensures y / k - (y - 1) / k == (if y % k == 0 then 1 else 0)
  {
    var q, r := y / k, y % k;
    if r == 0 {
      DivUnique(y - 1, k, q - 1, k - 1);
    } else {
      DivUnique(y - 1, k, q, r - 1);
    }
  }

  /** A year has 366 days when it is a leap year and 365 otherwise. */
  lemma YearLength(y: int)
    ensures DaysBeforeYear(y + 1) - DaysBeforeYear(y) == (if IsLeapYear(y) then 366 else 365)
  {
    DivStep(y, 4);
    DivStep(y, 100);
    DivStep(y, 400);
    if y % 400 == 0 {
      DivUnique(y, 100, 4 * (y / 400), 0);
      DivUnique(y, 4, 100 * (y / 400), 0);
    } else if y % 100 == 0 {
      DivUnique(y, 4, 25 * (y / 100), 0);
    }
  }

  /** The first day of month `k + 1` comes `MonthLength(k)` days after the first day of month `k`. */
  lemma MonthStep(k: int)
    ensures DaysBeforeMonthIndex(k + 1) == DaysBeforeMonthIndex(k) + MonthLength(k)
  {
    if k % 12 == 11 {
      assert (k + 1) / 12 == k / 12 + 1 && (k + 1) % 12 == 0;
      YearLength(k / 12);
    } else {
      assert (k + 1) / 12 == k / 12 && (k + 1) % 12 == k % 12 + 1;
    }
  }

  lemma OrdinalByMonthIndex(d: CivilDate)
    ensures Ordinal(d) == DaysBeforeMonthIndex(MonthIndex(d)) + d.day
  {
    assert MonthIndex(d) / 12 == d.year && MonthIndex(d) % 12 + 1 == d.month;
  }

  /**
   * Normalisation moves whole months between the month index and the day: for any
   * measure `f` of month starts, the start of the resulting month plus its day is preserved.
   */
  lemma {:induction false} WalkPreserves(k: int, d: int, f: int -> int)
    requires forall j :: f(j + 1) == f(j) + MonthLength(j)
    ensures f(MonthIndex(Walk(k, d))) + Walk(k, d).day == f(k) + d
    decreases if d < 1 then 1 - d else 0, if d < 1 then 0 else d
  {
    if d < 1 {
      var e := d + MonthLength(k - 1);
      assert f(k) == f(k - 1) + MonthLength(k - 1);
      assert Walk(k, d) == Walk(k - 1, e);
      WalkPreserves(k - 1, e, f);
    } else if d > MonthLength(k) {
      var e := d - MonthLength(k);
      assert 1 <= e < d;
      assert Walk(k, d) == Walk(k + 1, e);
      WalkPreserves(k + 1, e, f);
    } else {
      assert MonthIndex(Walk(k, d)) == k;
    }
  }

  /** Normalising an out-of-range day lands exactly `d - 1` days after the first of month `k`. */
  lemma OrdinalWalk(k: int, d: int)
    ensures Ordinal(Walk(k, d)) == DaysBeforeMonthIndex(k) + d
  {
    MonthStarts();
    WalkPreserves(k, d, DaysBeforeMonthIndex);
    OrdinalByMonthIndex(Walk(k, d));
  }

  /** `date.setDate(date.getDate() + n)`: the date `n` days later (earlier when `n < 0`). */
  function AddDays(from: CivilDate, n: int): (r: CivilDate)
    ensures Ordinal(r) == Ordinal(from) + n
  {
    OrdinalWalk(MonthIndex(from), from.day + n);
    OrdinalByMonthIndex(from);
    Walk(MonthIndex(from), from.day + n)
  }

  /**
   * `r` is `n` calendar months after `from` under `setMonth` rollover: the same day in the
   * target month when that month is long enough, otherwise the overflow days counted into
   * the month after it (Jan 31 + 1 month is Mar 3, or Mar 2 in a leap year).
   */
  predicate MonthsLater(from: CivilDate, n: int, r: CivilDate) {
    var k := MonthIndex(from) + n;
    if from.day <= MonthLength(k) then MonthIndex(r) == k && r.day == from.day
    else MonthIndex(r) == k + 1 && r.day == from.day - MonthLength(k)
  }

  /** `date.setMonth(date.getMonth() + n)`. */
  function AddMonths(from: CivilDate, n: int): (r: CivilDate)
    ensures MonthsLater(from, n, r)
  {
    var k := MonthIndex(from) + n;
    if from.day <= MonthLength(k) then Walk(k, from.day)
    else
      assert Walk(k, from.day) == Walk(k + 1, from.day - MonthLength(k));
      Walk(k, from.day)
  }

  /**
   * `r` is `n` years after `from` under `setFullYear` rollover: the same month and day,
   * except that February 29th becomes March 1st in a common year.
   */
  predicate YearsLater(from: CivilDate, n: int, r: CivilDate) {
    if from.day <= DaysInMonth(from.year + n, from.month) then r == Date(from.year + n, from.month, from.day)
    else r == Date(from.year + n, 3, 1)
  }

  /** `date.setFullYear(date.getFullYear() + n)`. */
  function AddYears(from: CivilDate, n: int): (r: CivilDate)
    ensures YearsLater(from, n, r)
  {
    var k := MonthIndex(from) + 12 * n;
    assert k / 12 == from.year + n && k % 12 + 1 == from.month;
    if from.day <= MonthLength(k) then Walk(k, from.day)
    else
      assert Walk(k, from.day) == Walk(k + 1, from.day - MonthLength(k));
      assert (k + 1) / 12 == from.year + n && (k + 1) % 12 + 1 == 3;
      Walk(k, from.day)
  }

  /** Lexicographic (year, month, day) order: the order of the calendar. */
  predicate CalendarLe(a: Date, b: Date) {
    a.year < b.year
    || (a.year == b.year && (a.month < b.month || (a.month == b.month && a.day <= b.day)))
  }

  lemma MonthStarts()
    ensures forall j :: DaysBeforeMonthIndex(j + 1) == DaysBeforeMonthIndex(j) + MonthLength(j)
  {
    forall j | true
      ensures DaysBeforeMonthIndex(j + 1) == DaysBeforeMonthIndex(j) + MonthLength(j)
    {
      MonthStep(j);
    }
  }

  /** A later month starts at least a whole month after an earlier one. */
  lemma {:induction false} MonthStartsIncrease(a: int, b: int, f: int -> int)
    requires forall j :: f(j + 1) == f(j) + MonthLength(j)
    requires a < b
    ensures f(a) + MonthLength(a) <= f(b)
    decreases b - a
  {
    if a + 1 < b {
      MonthStartsIncrease(a + 1, b, f);
      assert f(a + 1) + MonthLength(a + 1) <= f(b);
    }
  }

  lemma DayWithinMonth(d: CivilDate)
    ensures d.day <= MonthLength(MonthIndex(d))
  {
    assert MonthIndex(d) / 12 == d.year && MonthIndex(d) % 12 + 1 == d.month;
  }

  /** Comparing `getTime()` values of two dates is comparing them on the calendar. */
  lemma DateLeIsCalendarOrder(a: CivilDate, b: CivilDate)
    ensures DateLe(a, b) <==> CalendarLe(a, b)
  {
    OrdinalByMonthIndex(a);
    OrdinalByMonthIndex(b);
    DayWithinMonth(a);
    DayWithinMonth(b);
    var ka, kb := MonthIndex(a), MonthIndex(b);
    MonthStarts();
    if ka < kb {
      MonthStartsIncrease(ka, kb, DaysBeforeMonthIndex);
    } else if kb < ka {
      MonthStartsIncrease(kb, ka, DaysBeforeMonthIndex);
    }
  }

  /** Distinct calendar dates have distinct day numbers. */
  lemma OrdinalInjective(a: CivilDate, b: CivilDate)
    requires Ordinal(a) == Ordinal(b)
    ensures a == b
  {
    DateLeIsCalendarOrder(a, b);
    DateLeIsCalendarOrder(b, a);
  }

  /** Adding days twice is adding their sum. */
  lemma AddDaysAdditive(d: CivilDate, a: int, b: int)
    ensures AddDays(AddDays(d, a), b) == AddDays(d, a + b)
  {
    OrdinalInjective(AddDays(AddDays(d, a), b), AddDays(d, a + b));
  }

  /** The fixture's three-month interval: 2024-11-15 plus 3 months is 2025-02-15. */
  lemma ThreeMonthsExample()
    ensures AddMonths(Date(2024, 11, 15), 3) == Date(2025, 2, 15)
  {
    assert MonthIndex(Date(2024, 11, 15)) + 3 == 24301;
    assert Walk(24301, 15) == Date(2025, 2, 15);
  }

  /** January 31st plus one month overflows February: March 3rd in a common year. */
  lemma MonthOverflowExample()
    ensures AddMonths(Date(2023, 1, 31), 1) == Date(2023, 3, 3)
  {
    assert MonthIndex(Date(2023, 1, 31)) + 1 == 24277;
    assert MonthLength(24277) == 28;
    assert Walk(24277, 31) == Walk(24278, 3) == Date(2023, 3, 3);
  }

  /** January 31st plus one month in a leap year is March 2nd. */
  lemma LeapMonthOverflowExample()
    ensures AddMonths(Date(2024, 1, 31), 1) == Date(2024, 3, 2)
  {
    assert MonthIndex(Date(2024, 1, 31)) + 1 == 24289;
    assert MonthLength(24289) == 29;
    assert Walk(24289, 31) == Walk(24290, 2) == Date(2024, 3, 2);
  }

  /** A yearly interval from New Year's Day: 2024-01-01 plus one year is 2025-01-01. */
  lemma OneYearExample()
    ensures AddYears(Date(2024, 1, 1), 1) == Date(2025, 1, 1)
  {
  }

  /** February 29th plus one year is March 1st. */
  lemma LeapDayYearExample()
    ensures AddYears(Date(2024, 2, 29), 1) == Date(2025, 3, 1)
  {
  }

  /** Adding days crosses the year boundary: 2024-12-30 plus 3 days is 2025-01-02. */
  lemma YearBoundaryExample()
    ensures AddDays(Date(2024, 12, 30), 3) == Date(2025, 1, 2)
  {
    assert MonthIndex(Date(2024, 12, 30)) == 24299;
    assert Walk(24299, 33) == Walk(24300, 2) == Date(2025, 1, 2);
  }
}

=== FILE: machine_management.dfy ===
/**
 * The machine-management screen: building plan items from the item form, adding and
 * removing them from the machine form's plan, submitting the machine form, loading a
 * machine into it for editing, and the machine list's search filter.
 */
module MachineManagement {
  import opened Wrappers
  import opened Dates
  import opened Types
  import opened Seqs
  import opened Text
  import opened Scheduler
  import opened App

  /** The plan-item form's fields. */
  datatype ItemForm = ItemForm(
    taskName: string,
    description: string,
    scheduleType: ScheduleType,
    intervalValue: int,
    intervalUnit: IntervalUnit,
    usageLimit: int,
    usageUnit: UsageUnit,
    isActive: bool)

  /** What the item form holds when opened and after every added item. */
  const DefaultItemForm: ItemForm := ItemForm("", "", Time, 1, Months, 100, Hours, true)

  // ---------------------------------------------------------------------------
  // Plan items

  /**
   * The plan item the form describes. A time item carries only the interval fields and a
   * usage item only the usage fields, with its counter starting at 0.
   */
  function BuildItem(form: ItemForm, id: string): (item: PlanItem)
    ensures item.id == id && item.taskName == form.taskName && item.description == form.description
    ensures item.isActive == form.isActive
    ensures item.lastExecutionDate.None? && item.nextScheduledDate.None?
    ensures item.schedule.Type() == form.scheduleType
    ensures item.schedule.TimeSchedule? ==>
      item.schedule.intervalValue == Some(form.intervalValue) && item.schedule.intervalUnit == Some(form.intervalUnit)
    ensures item.schedule.UsageSchedule? ==>
      && item.schedule.usageLimit == Some(form.usageLimit) && item.schedule.usageUnit == Some(form.usageUnit)
      && item.schedule.currentUsage == Some(0)
  {
    var schedule := match form.scheduleType
      case Time => TimeSchedule(Some(form.intervalValue), Some(form.intervalUnit))
      case Usage => UsageSchedule(Some(form.usageLimit), Some(form.usageUnit), Some(0));
    PlanItem(id, form.taskName, form.description, schedule, form.isActive, None, None)
  }

  /**
   * handleAddMaintenanceItem: a form whose task name is blank changes nothing; otherwise the
   * built item is appended to the plan and the item form goes back to its defaults.
   */
  function AddMaintenanceItem(plan: seq<PlanItem>, form: ItemForm, freshId: string): (r: (seq<PlanItem>, ItemForm))
    ensures IsBlank(form.taskName) ==> r == (plan, form)
    ensures !IsBlank(form.taskName) ==>
      && |r.0| == |plan| + 1 && r.0[..|plan|] == plan
      && r.0[|plan|] == BuildItem(form, freshId)
      && r.1 == DefaultItemForm
  {
    if IsBlank(form.taskName) then (plan, form)
    else
      var grown := plan + [BuildItem(form, freshId)];
      assert grown[..|plan|] == plan;
      (grown, DefaultItemForm)
  }

  /** handleRemoveMaintenanceItem: every item with the id leaves the plan; the rest keep their order. */
  function RemoveMaintenanceItem(plan: seq<PlanItem>, itemId: string): (r: seq<PlanItem>)
    ensures forall k :: 0 <= k < |r| ==> r[k].id != itemId
    ensures IsSubsequence(r, plan)
    ensures forall k :: 0 <= k < |plan| && plan[k].id != itemId ==> plan[k] in r
    ensures |r| + Count(plan, (item: PlanItem) => item.id == itemId) == |plan|
  {
    var keep := (item: PlanItem) => item.id != itemId;
    CountComplement(plan, keep, (item: PlanItem) => item.id == itemId);
    Filter(plan, keep)
  }

  /** Removing a just-added item, whose fresh id the plan did not have, gives the plan back. */
  lemma RemoveUndoesAdd(plan: seq<PlanItem>, form: ItemForm, freshId: string)
    requires !IsBlank(form.taskName)
    requires forall k :: 0 <= k < |plan| ==> plan[k].id != freshId
    ensures RemoveMaintenanceItem(AddMaintenanceItem(plan, form, freshId).0, freshId) == plan
  {
    var keep := (item: PlanItem) => item.id != freshId;
    FilterSnoc(plan, BuildItem(form, freshId), keep);
    FilterAll(plan, keep);
  }

  /** A built item with a non-zero interval or limit gets a first work order when its machine is registered. */
  lemma BuiltItemSchedulable(form: ItemForm, id: string)
    requires form.isActive
    requires form.scheduleType == Time ==> form.intervalValue != 0
    requires form.scheduleType == Usage ==> form.usageLimit != 0
    ensures Schedulable(BuildItem(form, id))
  {
  }

  /**
   * A freshly built usage item starts with its counter at 0, so completing a work order of it
   * produces no follow-up and leaves the item as it was.
   */
  lemma FreshUsageItemWaitsForUsage(form: ItemForm, id: string, completed: MaintenanceTask, machine: Machine,
                                    completion: CivilDate, freshId: string)
    requires form.scheduleType == Usage
    ensures var item := BuildItem(form, id);
      CompleteItem(item, completed, machine, completion, freshId) == Completion(item, None)
  {
  }

  // ---------------------------------------------------------------------------
  // The machine form

  /** A machine form that handleSubmitMachine refuses: blank name or blank model. */
  predicate Incomplete(data: MachineData) {
    IsBlank(data.name) || IsBlank(data.model)
  }

  /**
   * handleSubmitMachine: an incomplete form changes nothing; otherwise the machine being
   * edited takes the form, or a new machine is registered.
   */
  function SubmitMachine(st: AppState, data: MachineData, editing: Option<string>, freshId: string): (r: AppState)
    ensures Incomplete(data) ==> r == st
    ensures !Incomplete(data) && editing.Some? ==>
      && |r.machines| == |st.machines|
      && (forall i :: 0 <= i < |st.machines| ==> r.machines[i].id == st.machines[i].id)
      && (forall i :: 0 <= i < |st.machines| && st.machines[i].id == editing.value ==>
            r.machines[i].name == data.name && r.machines[i].model == data.model)
      && (forall i :: 0 <= i < |st.machines| && st.machines[i].id != editing.value ==> r.machines[i] == st.machines[i])
    ensures !Incomplete(data) && editing.None? ==>
      |r.machines| == |st.machines| + 1 && r.machines[..|st.machines|] == st.machines
      && r.machines[|st.machines|].id == freshId
    ensures |r.machines| > |st.machines| ==>
      !IsBlank(r.machines[|st.machines|].name) && !IsBlank(r.machines[|st.machines|].model)
    ensures !Incomplete(data) && editing.Some? ==> r == UpdateMachine(st, editing.value, data)
    ensures !Incomplete(data) && editing.None? ==> r == AddMachine(st, data, freshId)
    ensures |r.tasks| >= |st.tasks| && r.tasks[..|st.tasks|] == st.tasks
  {
    if Incomplete(data) then st
    else match editing
      case Some(id) => EditedFormFacts(st, id, data); UpdateMachine(st, id, data)
      case None => AddedFormFacts(st, data, freshId); AddMachine(st, data, freshId)
  }

  /** What an accepted edit does to the lists, read off the edit handler's contract. */
  lemma EditedFormFacts(st: AppState, id: string, data: MachineData)
    ensures var r := UpdateMachine(st, id, data);
      && |r.machines| == |st.machines| && |r.tasks| >= |st.tasks| && r.tasks[..|st.tasks|] == st.tasks
      && (forall i :: 0 <= i < |st.machines| ==> r.machines[i].id == st.machines[i].id)
      && (forall i :: 0 <= i < |st.machines| && st.machines[i].id == id ==>
            r.machines[i].name == data.name && r.machines[i].model == data.model)
      && (forall i :: 0 <= i < |st.machines| && st.machines[i].id != id ==> r.machines[i] == st.machines[i])
  {
  }

  /** What an accepted registration does to the lists, read off the registration handler's contract. */
  lemma AddedFormFacts(st: AppState, data: MachineData, freshId: string)
    ensures var r := AddMachine(st, data, freshId);
      && |r.machines| == |st.machines| + 1 && r.machines[..|st.machines|] == st.machines
      && r.machines[|st.machines|].id == freshId && r.machines[|st.machines|].name == data.name
      && r.machines[|st.machines|].model == data.model
      && |r.tasks| >= |st.tasks| && r.tasks[..|st.tasks|] == st.tasks
  {
  }

  /** handleEditMachine: the form loaded with a machine; an absent operating-hours count shows as 0. */
  function EditForm(m: Machine): (data: MachineData)
    ensures data.plan == m.plan && data.acquisitionDate == m.acquisitionDate
    ensures data.operatingHours == (if m.operatingHours.Some? then m.operatingHours.value else 0)
  {
    MachineData(m.name, m.model, m.manufacturer, m.serialNumber, m.location, m.status,
      m.installationDate, m.acquisitionDate, m.operatingHours.GetOr(0), m.plan)
  }

  /** No item of a plan is new to that same plan. */
  lemma NothingNewInOwnPlan(plan: seq<PlanItem>)
    ensures forall k :: 0 <= k < |plan| ==> !IsNewItem(plan[k], plan)
  {
    forall k | 0 <= k < |plan|
      ensures !IsNewItem(plan[k], plan)
    {
      var sameId := (e: PlanItem) => e.id == plan[k].id;
      assert sameId(plan[k]);
    }
  }

  /** An edit that schedules nothing new for any machine with the id adds no work orders. */
  lemma {:induction false} EditTasksAllNothingNew(machines: seq<Machine>, id: string, data: MachineData)
    requires forall i :: 0 <= i < |machines| && machines[i].id == id ==>
      forall k :: 0 <= k < |data.plan| ==> !IsNewItem(data.plan[k], machines[i].plan)
    ensures EditTasksAll(machines, id, data) == []
    decreases |machines|
  {
    if |machines| > 0 {
      EditTasksAllNothingNew(machines[1..], id, data);
      if machines[0].id == id {
        var m := machines[0];
        FilterNone(data.plan, (item: PlanItem) => IsNewItem(item, m.plan));
        assert NewPlanItems(data.plan, m.plan) == [];
        assert Count([], Schedulable) == 0;
      }
    }
  }

  /**
   * Opening a machine for editing and saving the form unchanged schedules no work orders and
   * leaves the machine as it was, except that an absent operating-hours count becomes 0.
   */
  lemma UnchangedEditIsQuiet(st: AppState, m: Machine)
    requires forall i :: 0 <= i < |st.machines| && st.machines[i].id == m.id ==> st.machines[i] == m
    ensures var r := UpdateMachine(st, m.id, EditForm(m));
      && r.tasks == st.tasks
      && forall i :: 0 <= i < |st.machines| ==>
        r.machines[i] == if st.machines[i].id == m.id then m.(operatingHours := Some(m.operatingHours.GetOr(0))) else st.machines[i]
  {
    var data := EditForm(m);
    NothingNewInOwnPlan(m.plan);
    EditTasksAllNothingNew(st.machines, m.id, data);
    var edited := EditedMachine(m, data);
    assert edited.plan == m.plan;
    var r := UpdateMachine(st, m.id, data);
    assert r.tasks == st.tasks + [];
  }

  // ---------------------------------------------------------------------------
  // The machine list

  /** The search box matches a machine's name, model or location, ignoring case. */
  predicate MatchesMachineSearch(m: Machine, search: string) {
    || Contains(Lower(m.name), Lower(search))
    || Contains(Lower(m.model), Lower(search))
    || Contains(Lower(m.location), Lower(search))
  }

  predicate MachineShown(m: Machine, search: string, statusFilter: string) {
    MatchesMachineSearch(m, search) && MatchesChoice(statusFilter, MachineStatusLiteral(m.status))
  }

  /** filteredMachines: the machines the search and the status drop-down let through, in list order. */
  function FilteredMachines(machines: seq<Machine>, search: string, statusFilter: string): (r: seq<Machine>)
    ensures IsSubsequence(r, machines)
    ensures forall k :: 0 <= k < |r| ==> MachineShown(r[k], search, statusFilter)
    ensures forall i :: 0 <= i < |machines| && MachineShown(machines[i], search, statusFilter) ==> machines[i] in r
    ensures |r| + Count(machines, (m: Machine) => !MachineShown(m, search, statusFilter)) == |machines|
  {
    var shown := (m: Machine) => MachineShown(m, search, statusFilter);
    CountComplement(machines, shown, (m: Machine) => !MachineShown(m, search, statusFilter));
    Filter(machines, shown)
  }

  /** An empty search with the status on "all" shows every machine. */
  lemma UnfilteredMachineList(machines: seq<Machine>)
    ensures FilteredMachines(machines, "", "all") == machines
  {
    forall i | 0 <= i < |machines|
      ensures MachineShown(machines[i], "", "all")
    {
      ContainsEmpty(Lower(machines[i].name));
    }
    FilterAll(machines, (m: Machine) => MachineShown(m, "", "all"));
  }

  /** Choosing a status in the drop-down shows machines of that status only. */
  lemma MachineStatusFilterSelects(machines: seq<Machine>, search: string, status: MachineStatus)
    ensures var r := FilteredMachines(machines, search, MachineStatusLiteral(status));
      forall k :: 0 <= k < |r| ==> r[k].status == status
  {
    LiteralsRoundTrip();
  }
}

=== FILE: scenarios.dfy ===
/**
 * Worked scenarios: a machine followed from registration through one completed monthly
 * work order, and the two sides of the usage gate.
 */
module Scenarios {
  import opened Wrappers
  import opened Dates
  import opened Types
  import opened Seqs
  import opened Scheduler
  import opened App

  /** An active monthly lubrication rule. */
  const Monthly: PlanItem := PlanItem("pm1", "Lubrication", "Oil the spindle", TimeSchedule(Some(1), Some(Months)), true, None, None)

  /** A lathe acquired on 2024-01-01 whose plan is the monthly rule. */
  const LatheForm: MachineData :=
    MachineData("Lathe", "L-200", "Acme", "SN-1", "Hall A", Operational, Date(2024, 1, 1), Date(2024, 1, 1), 0, [Monthly])

  /** A usage rule due every 500 hours, with `current` hours recorded. */
  function FilterChange(current: int): PlanItem {
    PlanItem("pm2", "Filter change", "", UsageSchedule(Some(500), Some(Hours), Some(current)), true, None, None)
  }

  lemma MonthAfterAcquisition()
    ensures AddMonths(Date(2024, 1, 1), 1) == Date(2024, 2, 1)
  {
    assert MonthIndex(Date(2024, 1, 1)) + 1 == 24289;
    assert Walk(24289, 1) == Date(2024, 2, 1);
  }

  lemma MonthAfterCompletion()
    ensures AddMonths(Date(2024, 2, 3), 1) == Date(2024, 3, 3)
  {
    assert MonthIndex(Date(2024, 2, 3)) + 1 == 24290;
    assert Walk(24290, 3) == Date(2024, 3, 3);
  }

  /** The lathe as stored after registration: its rule carries the first due date, 2024-02-01. */
  const Lathe: Machine := NewMachine(LatheForm, "m1").(plan := [Monthly.(nextScheduledDate := Some(Date(2024, 2, 1)))])

  /** The first work order registration schedules for the lathe. */
  const FirstOrder: MaintenanceTask := InitialTask(NewMachine(LatheForm, "m1"), Monthly, Date(2024, 2, 1))

  /** The first order's id spells out the machine and the rule. */
  lemma FirstOrderId()
    ensures FirstOrder.id == "init_m1_pm1"
  {
    assert "init_" + "m1" == "init_m1";
    assert "init_m1" + "_" == "init_m1_";
    assert "init_m1_" + "pm1" == "init_m1_pm1";
  }

  /** The lathe registered into an empty application. */
  function Registered(): AppState {
    AddMachine(AppState([], []), LatheForm, "m1")
  }

  /** The monthly rule's first due date is one month after the lathe's acquisition. */
  lemma MonthlyFirstDate()
    ensures InitialDate(Monthly, Date(2024, 1, 1)) == Some(Date(2024, 2, 1))
  {
    MonthAfterAcquisition();
    assert NextMaintenanceDate(Monthly, Date(2024, 1, 1)) == Date(2024, 2, 1);
  }

  /** The stored plan: the monthly rule with its first due date written back. */
  lemma LathePlan()
    ensures ScheduledPlan([Monthly], Date(2024, 1, 1)) == Lathe.plan
  {
    MonthlyFirstDate();
    assert ScheduleItem(Monthly, Date(2024, 1, 1)) == Lathe.plan[0];
  }

  /** The work orders registration schedules: one, for the monthly rule. */
  lemma LatheOrders()
    ensures InitialTasks(NewMachine(LatheForm, "m1")) == [FirstOrder]
  {
    MonthlyFirstDate();
    var m := NewMachine(LatheForm, "m1");
    assert Filter(m.plan, Schedulable) == [Monthly];
  }

  /** Registration stores the lathe with its rule scheduled and exactly one work order. */
  lemma RegisteredState()
    ensures Registered() == AppState([Lathe], [FirstOrder])
  {
    LathePlan();
    LatheOrders();
    var m := NewMachine(LatheForm, "m1");
    assert m.(plan := ScheduledPlan(m.plan, m.acquisitionDate)) == Lathe;
    assert Registered() == AppState([] + [Lathe], [] + [FirstOrder]);
  }

  /** Registering the lathe schedules one work order, due 2024-02-01, and records that date on the rule. */
  lemma RegistrationScenario()
    ensures var st := Registered();
      && |st.tasks| == 1
      && st.tasks[0].id == "init_m1_pm1" && st.tasks[0].preventiveItemId == Some("pm1")
      && st.tasks[0].scheduledDate == Date(2024, 2, 1) && st.tasks[0].status == Pending
      && st.machines[0].plan[0].nextScheduledDate == Some(Date(2024, 2, 1))
  {
    RegisteredState();
    FirstOrderId();
    assert FirstOrder.scheduledDate == Date(2024, 2, 1);
  }

  /**
   * The state after completing the first work order on 2024-02-03: that order stamped with the
   * fixed completion date, a follow-up "auto_1" due 2024-03-03, and the rule's execution recorded.
   */
  predicate CompletedOnce(after: AppState) {
    && |after.tasks| == 2 && |after.machines| == 1 && |after.machines[0].plan| == 1
    && after.tasks[0].status == Completed && after.tasks[0].completedDate == Some(CompletionStamp)
    && after.tasks[1].id == "auto_1" && after.tasks[1].scheduledDate == Date(2024, 3, 3)
    && after.tasks[1].title == "Lubrication" && after.tasks[1].status == Pending
    && after.machines[0].plan[0].lastExecutionDate == Some(Date(2024, 2, 3))
    && after.machines[0].plan[0].nextScheduledDate == Some(Date(2024, 3, 3))
  }

  /** The engine run on 2024-02-03 for the completed first order: a follow-up due 2024-03-03, written back to the rule. */
  lemma FollowUpOnCompletion()
    ensures var step := FollowUp(WithStatus(FirstOrder, Completed), [Lathe], Date(2024, 2, 3), "auto_1");
      && step.1.Some? && step.1.value.id == "auto_1" && step.1.value.scheduledDate == Date(2024, 3, 3)
      && step.1.value.title == "Lubrication" && step.1.value.status == Pending
      && |step.0| == 1 && |step.0[0].plan| == 1
      && step.0[0].plan[0].lastExecutionDate == Some(Date(2024, 2, 3))
      && step.0[0].plan[0].nextScheduledDate == Some(Date(2024, 3, 3))
  {
    MonthAfterCompletion();
    var now := Date(2024, 2, 3);
    var done := WithStatus(FirstOrder, Completed);
    assert AsksForFollowUp(done);
    assert MachineIndex([Lathe], "m1") == Some(0);
    assert LinkedItemIndex(done, Lathe) == Some(0);
    var g := GenerateNextTask(done, Lathe, now, "auto_1");
    assert Regenerates(Lathe.plan[0]);
    assert g.1.Some? && g.1.value.scheduledDate == Date(2024, 3, 3);
    var step := FollowUp(done, [Lathe], now, "auto_1");
    assert step.1 == g.1 && step.0[0] == g.0;
  }

  /** Completing the lathe's first order on 2024-02-03, stated on the registered state itself. */
  lemma CompletedLathe()
    ensures CompletedOnce(UpdateTaskStatus(AppState([Lathe], [FirstOrder]), FirstOrder.id, Completed, Date(2024, 2, 3), "auto_1"))
  {
    FollowUpOnCompletion();
    var st := AppState([Lathe], [FirstOrder]);
    var now := Date(2024, 2, 3);
    UniqueTaskUpdate(st, 0, Completed, now, "auto_1");
    var done := WithStatus(FirstOrder, Completed);
    assert st.tasks[0 := done] == [done];
    var step := FollowUp(done, [Lathe], now, "auto_1");
    var after := AppState(step.0, [done] + AsSeq(step.1));
    assert UpdateTaskStatus(st, FirstOrder.id, Completed, now, "auto_1") == after;
    assert after.tasks[1] == step.1.value;
  }

  /**
   * Completing that work order: the page stamps the fixed completion date on it, and, with the
   * engine run on 2024-02-03, appends a follow-up due 2024-03-03 and records the execution.
   */
  lemma CompletionScenario()
    ensures CompletedOnce(UpdateTaskStatus(Registered(), "init_m1_pm1", Completed, Date(2024, 2, 3), "auto_1"))
  {
    RegisteredState();
    FirstOrderId();
    CompletedLathe();
  }

  /** Below the limit: no follow-up, and the accrued 150 hours are discarded. */
  lemma UsageBelowLimitScenario(completed: MaintenanceTask, machine: Machine, completion: CivilDate, freshId: string)
    ensures CompleteItem(FilterChange(150), completed, machine, completion, freshId) == Completion(FilterChange(0), None)
  {
  }

  /** At the limit: a follow-up due on the completion date itself, and the counter back at 0. */
  lemma UsageAtLimitScenario(completed: MaintenanceTask, machine: Machine, completion: CivilDate, freshId: string)
    ensures var r := CompleteItem(FilterChange(500), completed, machine, completion, freshId);
      && r.next.Some? && r.next.value.scheduledDate == completion
      && r.item.schedule.currentUsage == Some(0)
      && r.item.lastExecutionDate == Some(completion)
  {
  }
}

=== FILE: scheduler.dfy ===
/**
 * The maintenance-scheduling engine: the next-date calculator, the regeneration of a
 * follow-up work order when a preventive one is completed, and the first work orders
 * of a newly registered plan. The source mutates plan items in place; here every such
 * write-back is part of the result.
 */
module Scheduler {
  import opened Wrappers
  import opened Dates
  import opened Types
  import opened Seqs

  /** JavaScript truthiness of an optional number: absent and 0 are both falsy. */
  predicate IsSet(v: Option<int>) {
    v.Some? && v.value != 0
  }

  /** JavaScript truthiness of an optional string: absent and "" are both falsy. */
  predicate IsSetText(v: Option<string>) {
    v.Some? && v.value != ""
  }

  /** A time-based item with a non-zero interval value and a unit. */
  predicate HasInterval(item: PlanItem) {
    item.schedule.TimeSchedule? && IsSet(item.schedule.intervalValue) && item.schedule.intervalUnit.Some?
  }

  /**
   * The date one interval after `from` (calculateNextMaintenanceDate). Usage-based items
   * and items without a complete interval get `from` itself.
   */
  function NextMaintenanceDate(item: PlanItem, from: CivilDate): (r: CivilDate)
    ensures !HasInterval(item) ==> r == from
    ensures HasInterval(item) ==>
      var n := item.schedule.intervalValue.value;
      match item.schedule.intervalUnit.value
      case Days => Ordinal(r) == Ordinal(from) + n
      case Weeks => Ordinal(r) == Ordinal(from) + 7 * n
      case Months => MonthsLater(from, n, r)
      case Years => YearsLater(from, n, r)
  {
    if HasInterval(item) then
      var n := item.schedule.intervalValue.value;
      match item.schedule.intervalUnit.value
      case Days => AddDays(from, n)
      case Weeks => AddDays(from, 7 * n)
      case Months => AddMonths(from, n)
      case Years => AddYears(from, n)
    else from
  }

  // ---------------------------------------------------------------------------
  // Completion and regeneration

  /** The usage counter and the limit are both set and the counter has reached the limit. */
  predicate UsageLimitReached(s: Schedule)
    requires s.UsageSchedule?
  {
    IsSet(s.currentUsage) && IsSet(s.usageLimit) && s.currentUsage.value >= s.usageLimit.value
  }

  /** Completing a task linked to `item` produces a follow-up work order. */
  predicate Regenerates(item: PlanItem) {
    item.isActive && (item.schedule.TimeSchedule? || UsageLimitReached(item.schedule))
  }

  /** The schedule with its usage counter set to 0; time-based schedules have no counter. */
  function ResetUsage(s: Schedule): (r: Schedule)
    ensures r.Type() == s.Type()
  {
    match s
    case TimeSchedule(_, _) => s
    case UsageSchedule(limit, unit, _) => UsageSchedule(limit, unit, Some(0))
  }

  /** The outcome of completing a task linked to a plan item: the item's new bookkeeping and the follow-up, if any. */
  datatype Completion = Completion(item: PlanItem, next: Option<MaintenanceTask>)

  function FollowUpTask(item: PlanItem, completed: MaintenanceTask, machine: Machine, date: CivilDate, freshId: string): MaintenanceTask {
    MaintenanceTask(
      id := freshId,
      machineId := machine.id,
      machineName := machine.name,
      taskType := Preventive,
      title := item.taskName,
      description := item.description,
      scheduledDate := date,
      completedDate := None,
      status := Pending,
      priority := Medium,
      estimatedDuration := completed.estimatedDuration,
      actualDuration := None,
      assignedTo := completed.assignedTo,
      cost := completed.cost,
      notes := None,
      preventiveItemId := Some(item.id))
  }

  /**
   * Completing a task linked to `item` on `completion` (the part of generateNextMaintenanceTask
   * after the item is found). An inactive item, or a usage item whose counter or limit is unset,
   * is left alone; a usage item below its limit only has its counter reset; otherwise a pending,
   * medium-priority follow-up is emitted and the item records the execution.
   */
  function CompleteItem(item: PlanItem, completed: MaintenanceTask, machine: Machine, completion: CivilDate, freshId: string): (r: Completion)
    ensures r.next.Some? <==> Regenerates(item)
    ensures r.item.id == item.id && r.item.taskName == item.taskName && r.item.isActive == item.isActive
    ensures !item.isActive ==> r.item == item
    ensures item.isActive && item.schedule.UsageSchedule? && !(IsSet(item.schedule.currentUsage) && IsSet(item.schedule.usageLimit))
      ==> r.item == item
    ensures item.isActive && item.schedule.UsageSchedule? && IsSet(item.schedule.currentUsage) && IsSet(item.schedule.usageLimit)
      && item.schedule.currentUsage.value < item.schedule.usageLimit.value
      ==> r.item == item.(schedule := item.schedule.(currentUsage := Some(0)))
    ensures r.next.Some? ==>
      var t := r.next.value;
      && t.id == freshId && t.machineId == machine.id && t.machineName == machine.name
      && t.taskType == Preventive && t.status == Pending && t.priority == Medium
      && t.title == item.taskName && t.description == item.description
      && t.estimatedDuration == completed.estimatedDuration
      && t.assignedTo == completed.assignedTo && t.cost == completed.cost
      && t.completedDate.None? && t.actualDuration.None? && t.notes.None?
      && t.preventiveItemId == Some(item.id)
      && t.scheduledDate == NextMaintenanceDate(item, completion)
      && r.item == item.(lastExecutionDate := Some(completion),
                         nextScheduledDate := Some(t.scheduledDate),
                         schedule := ResetUsage(item.schedule))
  {
    if !item.isActive then Completion(item, None)
    else
      var nextDate := NextMaintenanceDate(item, completion);
      if item.schedule.UsageSchedule? && !(IsSet(item.schedule.currentUsage) && IsSet(item.schedule.usageLimit)) then
        Completion(item, None)
      else if item.schedule.UsageSchedule? && item.schedule.currentUsage.value < item.schedule.usageLimit.value then
        Completion(item.(schedule := item.schedule.(currentUsage := Some(0))), None)
      else
        var task := FollowUpTask(item, completed, machine, nextDate, freshId);
        var updated := item.(lastExecutionDate := Some(completion), nextScheduledDate := Some(nextDate));
        Completion(updated.(schedule := ResetUsage(item.schedule)), Some(task))
  }

  /** Position of the plan item a completed task regenerates from, when the task is linked to one. */
  function LinkedItemIndex(completed: MaintenanceTask, machine: Machine): (r: Option<nat>)
    ensures r.Some? ==> r.value < |machine.plan|
    ensures r.Some? <==> (completed.taskType == Preventive && IsSetText(completed.preventiveItemId)
      && exists j :: 0 <= j < |machine.plan| && machine.plan[j].id == completed.preventiveItemId.value)
    ensures r.Some? ==> (machine.plan[r.value].id == completed.preventiveItemId.value
      && forall j :: 0 <= j < r.value ==> machine.plan[j].id != completed.preventiveItemId.value)
  {
    if completed.taskType == Preventive && IsSetText(completed.preventiveItemId) then
      FindIndex(machine.plan, (item: PlanItem) => item.id == completed.preventiveItemId.value)
    else None
  }

  /**
   * generateNextMaintenanceTask: the machine with the linked item's bookkeeping written back,
   * and the follow-up task. Tasks that are not preventive, not linked, or linked to an item
   * the plan no longer has leave the machine unchanged and produce nothing.
   */
  function GenerateNextTask(completed: MaintenanceTask, machine: Machine, completion: CivilDate, freshId: string)
    : (r: (Machine, Option<MaintenanceTask>))
    ensures LinkedItemIndex(completed, machine).None? ==> r == (machine, None)
    ensures completed.taskType != Preventive ==> r == (machine, None)
    ensures r.0 == machine.(plan := r.0.plan) && |r.0.plan| == |machine.plan|
    ensures forall j :: 0 <= j < |machine.plan| ==> r.0.plan[j].id == machine.plan[j].id
    ensures LinkedItemIndex(completed, machine).Some? ==>
      var i := LinkedItemIndex(completed, machine).value;
      && (forall j :: 0 <= j < |machine.plan| && j != i ==> r.0.plan[j] == machine.plan[j])
      && (r.1.Some? <==> Regenerates(machine.plan[i]))
    ensures r.1.Some? ==>
      var i := LinkedItemIndex(completed, machine).value;
      && r.1.value.preventiveItemId == completed.preventiveItemId
      && r.1.value.scheduledDate == NextMaintenanceDate(machine.plan[i], completion)
      && r.0.plan[i].lastExecutionDate == Some(completion)
      && r.0.plan[i].nextScheduledDate == Some(r.1.value.scheduledDate)
    ensures LinkedItemIndex(completed, machine).Some? ==>
      var i := LinkedItemIndex(completed, machine).value;
      var c := CompleteItem(machine.plan[i], completed, machine, completion, freshId);
      r.0.plan[i] == c.item && r.1 == c.next
  {
    match LinkedItemIndex(completed, machine)
    case None => (machine, None)
    case Some(i) =>
      var c := CompleteItem(machine.plan[i], completed, machine, completion, freshId);
      (machine.(plan := machine.plan[i := c.item]), c.next)
  }

  /** A usage-based follow-up is due on the completion date itself: the calculator does not move it. */
  lemma UsageFollowUpDueOnCompletion(item: PlanItem, completed: MaintenanceTask, machine: Machine, completion: CivilDate, freshId: string)
    requires item.schedule.UsageSchedule?
    ensures var r := CompleteItem(item, completed, machine, completion, freshId);
      r.next.Some? ==> r.next.value.scheduledDate == completion && r.item.schedule.currentUsage == Some(0)
  {
  }

  /**
   * After a completion an active usage item with a set limit never keeps an accrued counter,
   * and completing its task again before new usage is recorded produces nothing.
   */
  lemma UsageCompletionClearsCounter(item: PlanItem, completed: MaintenanceTask, machine: Machine, completion: CivilDate, freshId: string)
    requires item.isActive && item.schedule.UsageSchedule?
    ensures var r := CompleteItem(item, completed, machine, completion, freshId);
      && (IsSet(item.schedule.usageLimit) ==> !IsSet(r.item.schedule.currentUsage))
      && CompleteItem(r.item, completed, machine, completion, freshId).next.None?
  {
  }

  /** A follow-up and the item it came from agree: the item anchors the new work order's date. */
  lemma FollowUpAnchoredOnItem(completed: MaintenanceTask, machine: Machine, completion: CivilDate, freshId: string)
    ensures var r := GenerateNextTask(completed, machine, completion, freshId);
      r.1.Some? ==> exists j :: (0 <= j < |r.0.plan|
        && Some(r.0.plan[j].id) == r.1.value.preventiveItemId
        && r.0.plan[j].isActive
        && r.0.plan[j].nextScheduledDate == Some(r.1.value.scheduledDate))
  {
    var r := GenerateNextTask(completed, machine, completion, freshId);
    if r.1.Some? {
      var i := LinkedItemIndex(completed, machine).value;
      assert r.0.plan[i].isActive;
      assert Some(r.0.plan[i].id) == r.1.value.preventiveItemId;
    }
  }

  /** An inactive plan item never yields a follow-up and is never modified by a completion. */
  lemma InactiveItemNeverRegenerates(completed: MaintenanceTask, machine: Machine, completion: CivilDate, freshId: string)
    requires LinkedItemIndex(completed, machine).Some?
    requires !machine.plan[LinkedItemIndex(completed, machine).value].isActive
    ensures GenerateNextTask(completed, machine, completion, freshId) == (machine, None)
  {
    var i := LinkedItemIndex(completed, machine).value;
    assert machine.plan[i := machine.plan[i]] == machine.plan;
  }

  // ---------------------------------------------------------------------------
  // Initial schedule

  /** ceil(usageLimit / 8): days to reach the usage limit at an assumed 8 hours of use a day. */
  function EstimatedDays(usageLimit: int): (days: int)
    ensures 8 * (days - 1) < usageLimit <= 8 * days
  {
    -((-usageLimit) / 8)
  }

  /** An active item with a usable configuration: a complete interval, or a set usage limit. */
  predicate Schedulable(item: PlanItem) {
    item.isActive && (HasInterval(item) || (item.schedule.UsageSchedule? && IsSet(item.schedule.usageLimit)))
  }

  /** The first due date of an item counted from the machine's acquisition, when it gets an initial task. */
  function InitialDate(item: PlanItem, acquisition: CivilDate): (r: Option<CivilDate>)
    ensures r.Some? <==> Schedulable(item)
    ensures r.Some? && item.schedule.TimeSchedule? ==> r.value == NextMaintenanceDate(item, acquisition)
    ensures r.Some? && item.schedule.UsageSchedule? ==>
      Ordinal(r.value) == Ordinal(acquisition) + EstimatedDays(item.schedule.usageLimit.value)
  {
    if !item.isActive then None
    else if HasInterval(item) then Some(NextMaintenanceDate(item, acquisition))
    else if item.schedule.UsageSchedule? && IsSet(item.schedule.usageLimit) then
      Some(AddDays(acquisition, EstimatedDays(item.schedule.usageLimit.value)))
    else None
  }

  /** The id of an item's first work order: `init_<machineId>_<itemId>`. */
  function InitialTaskId(machineId: string, itemId: string): string {
    "init_" + machineId + "_" + itemId
  }

  /** Within one machine, distinct plan items give distinct initial task ids. */
  lemma InitialTaskIdInjective(machineId: string, a: string, b: string)
    requires InitialTaskId(machineId, a) == InitialTaskId(machineId, b)
    ensures a == b
  {
    var prefix := "init_" + machineId + "_";
    assert InitialTaskId(machineId, a) == prefix + a && InitialTaskId(machineId, b) == prefix + b;
    assert (prefix + a)[|prefix|..] == a;
    assert (prefix + b)[|prefix|..] == b;
  }

  function InitialTask(machine: Machine, item: PlanItem, date: CivilDate): MaintenanceTask {
    MaintenanceTask(
      id := InitialTaskId(machine.id, item.id),
      machineId := machine.id,
      machineName := machine.name,
      taskType := Preventive,
      title := item.taskName,
      description := item.description,
      scheduledDate := date,
      completedDate := None,
      status := Pending,
      priority := Medium,
      estimatedDuration := 2.0,
      actualDuration := None,
      assignedTo := None,
      cost := None,
      notes := None,
      preventiveItemId := Some(item.id))
  }

  /**
   * The first work orders of a machine's plan (generateInitialMaintenanceTasks, reference
   * definition): one pending, medium-priority, two-hour task per schedulable item, in plan order.
   */
  function InitialTasks(machine: Machine): (r: seq<MaintenanceTask>)
    ensures |r| == Count(machine.plan, Schedulable)
    ensures forall k :: 0 <= k < |r| ==>
      && r[k].taskType == Preventive && r[k].status == Pending && r[k].priority == Medium
      && r[k].estimatedDuration == 2.0 && r[k].machineId == machine.id && r[k].machineName == machine.name
      && r[k].completedDate.None?
    ensures forall k :: 0 <= k < |r| ==> exists item :: (item in machine.plan && Schedulable(item)
      && r[k].preventiveItemId == Some(item.id) && r[k].id == InitialTaskId(machine.id, item.id)
      && r[k].title == item.taskName && r[k].description == item.description
      && Some(r[k].scheduledDate) == InitialDate(item, machine.acquisitionDate))
    ensures var items := Filter(machine.plan, Schedulable);
      forall k :: 0 <= k < |r| ==>
        && r[k].preventiveItemId == Some(items[k].id) && r[k].id == InitialTaskId(machine.id, items[k].id)
        && r[k].title == items[k].taskName && Some(r[k].scheduledDate) == InitialDate(items[k], machine.acquisitionDate)
        && r[k].description == items[k].description && r[k].assignedTo.None? && r[k].cost.None?
        && r[k].notes.None? && r[k].actualDuration.None?
  {
    var items := Filter(machine.plan, Schedulable);
    seq(|items|, k requires 0 <= k < |items| =>
      InitialTask(machine, items[k], InitialDate(items[k], machine.acquisitionDate).value))
  }

  /** The item with its next scheduled date set to its first due date, when it gets one. */
  function ScheduleItem(item: PlanItem, acquisition: CivilDate): (r: PlanItem)
    ensures r.(nextScheduledDate := item.nextScheduledDate) == item
    ensures Schedulable(item) ==> r.nextScheduledDate == InitialDate(item, acquisition)
    ensures !Schedulable(item) ==> r == item
  {
    match InitialDate(item, acquisition)
    case Some(d) => item.(nextScheduledDate := Some(d))
    case None => item
  }

  /** The plan after the initial generation's write-back. */
  function ScheduledPlan(plan: seq<PlanItem>, acquisition: CivilDate): (r: seq<PlanItem>)
    ensures |r| == |plan|
    ensures forall i :: 0 <= i < |plan| ==> r[i].id == plan[i].id && r[i].isActive == plan[i].isActive
  {
    seq(|plan|, i requires 0 <= i < |plan| => ScheduleItem(plan[i], acquisition))
  }

  /** Extending the plan by one item extends the initial work orders by that item's, if it gets one. */
  lemma InitialTasksSnoc(machine: Machine, prefix: seq<PlanItem>, item: PlanItem)
    ensures InitialTasks(machine.(plan := prefix + [item]))
      == InitialTasks(machine.(plan := prefix))
         + (if Schedulable(item) then [InitialTask(machine, item, InitialDate(item, machine.acquisitionDate).value)] else [])
  {
    FilterSnoc(prefix, item, Schedulable);
  }

  /** The same, for the prefixes of one plan that a pass over it visits. */
  lemma InitialTasksStep(machine: Machine, i: nat)
    requires i < |machine.plan|
    ensures var item := machine.plan[i];
      InitialTasks(machine.(plan := machine.plan[..i + 1]))
        == InitialTasks(machine.(plan := machine.plan[..i]))
           + (if Schedulable(item) then [InitialTask(machine, item, InitialDate(item, machine.acquisitionDate).value)] else [])
  {
    assert machine.plan[..i + 1] == machine.plan[..i] + [machine.plan[i]];
    InitialTasksSnoc(machine, machine.plan[..i], machine.plan[i]);
  }

  lemma ScheduledPlanStep(plan: seq<PlanItem>, i: nat, acquisition: CivilDate)
    requires i < |plan|
    ensures ScheduledPlan(plan[..i + 1], acquisition) == ScheduledPlan(plan[..i], acquisition) + [ScheduleItem(plan[i], acquisition)]
  {
  }

  /**
   * generateInitialMaintenanceTasks as the source writes it: one pass over the plan that
   * appends a task and writes the due date back for each schedulable item.
   */
  method GenerateInitialMaintenanceTasks(machine: Machine) returns (updated: Machine, tasks: seq<MaintenanceTask>)
    ensures tasks == InitialTasks(machine)
    ensures updated == machine.(plan := ScheduledPlan(machine.plan, machine.acquisitionDate))
  {
    var acquisition := machine.acquisitionDate;
    tasks := [];
    var plan: seq<PlanItem> := [];
    var i := 0;
    while i < |machine.plan|
      invariant 0 <= i <= |machine.plan|
      invariant tasks == InitialTasks(machine.(plan := machine.plan[..i]))
      invariant plan == ScheduledPlan(machine.plan[..i], acquisition)
    {
      var item := machine.plan[i];
      InitialTasksStep(machine, i);
      ScheduledPlanStep(machine.plan, i, acquisition);
      match InitialDate(item, acquisition) {
        case Some(date) =>
          assert Schedulable(item);
          tasks := tasks + [InitialTask(machine, item, date)];
          plan := plan + [item.(nextScheduledDate := Some(date))];
        case None =>
          plan := plan + [item];
      }
      i := i + 1;
    }
    assert machine.plan[..i] == machine.plan;
    updated := machine.(plan := plan);
  }

  /** Some item of `plan` is the one `t` links to and records `t`'s due date as its next one. */
  predicate RecordedIn(t: MaintenanceTask, plan: seq<PlanItem>) {
    exists j :: 0 <= j < |plan| && Some(plan[j].id) == t.preventiveItemId && plan[j].nextScheduledDate == Some(t.scheduledDate)
  }

  /** Every initial work order finds its item in the written-back plan, carrying the order's due date. */
  lemma InitialTasksRecordedInPlan(machine: Machine)
    ensures forall k :: 0 <= k < |InitialTasks(machine)| ==>
      RecordedIn(InitialTasks(machine)[k], ScheduledPlan(machine.plan, machine.acquisitionDate))
  {
    var plan := ScheduledPlan(machine.plan, machine.acquisitionDate);
    var r := InitialTasks(machine);
    var items := Filter(machine.plan, Schedulable);
    forall k | 0 <= k < |r|
      ensures RecordedIn(r[k], plan)
    {
      var item := items[k];
      assert item in machine.plan && Schedulable(item);
      var j :| 0 <= j < |machine.plan| && machine.plan[j] == item;
      assert plan[j] == ScheduleItem(item, machine.acquisitionDate);
    }
  }

  /** A plan with no active item yields no initial work orders. */
  lemma AllInactivePlanYieldsNothing(machine: Machine)
    requires forall i :: 0 <= i < |machine.plan| ==> !machine.plan[i].isActive
    ensures InitialTasks(machine) == []
  {
    CountMonotone(machine.plan, Schedulable, (item: PlanItem) => false);
    FilterNone(machine.plan, (item: PlanItem) => false);
  }

  lemma {:induction false} FilterNone<T>(s: seq<T>, p: T -> bool)
    requires forall i :: 0 <= i < |s| ==> !p(s[i])
    ensures Filter(s, p) == []
  {
    if |s| > 0 {
      FilterNone(s[1..], p);
    }
  }

  predicate DistinctIds(plan: seq<PlanItem>) {
    forall i, j :: 0 <= i < j < |plan| ==> plan[i].id != plan[j].id
  }

  /** Filtering keeps item ids distinct. */
  lemma {:induction false} FilterKeepsDistinctIds(plan: seq<PlanItem>, p: PlanItem -> bool)
    requires DistinctIds(plan)
    ensures DistinctIds(Filter(plan, p))
    decreases |plan|
  {
    if |plan| > 0 {
      FilterKeepsDistinctIds(plan[1..], p);
      if p(plan[0]) {
        HeadIdNotFiltered(plan, p);
        ConsDistinctIds(plan[0], Filter(plan[1..], p));
      }
    }
  }

  /** The first item's id is not among the kept items of the rest of a plan with distinct ids. */
  lemma HeadIdNotFiltered(plan: seq<PlanItem>, p: PlanItem -> bool)
    requires |plan| > 0 && DistinctIds(plan)
    ensures forall k :: 0 <= k < |Filter(plan[1..], p)| ==> Filter(plan[1..], p)[k].id != plan[0].id
  {
    var rest := Filter(plan[1..], p);
    forall k | 0 <= k < |rest|
      ensures rest[k].id != plan[0].id
    {
      var j :| 0 <= j < |plan[1..]| && plan[1..][j] == rest[k];
      assert plan[j + 1] == rest[k];
    }
  }

  /** An item whose id none of a distinct-id plan has can go in front of it. */
  lemma ConsDistinctIds(x: PlanItem, rest: seq<PlanItem>)
    requires DistinctIds(rest)
    requires forall k :: 0 <= k < |rest| ==> rest[k].id != x.id
    ensures DistinctIds([x] + rest)
  {
    var f := [x] + rest;
    forall i, j | 0 <= i < j < |f|
      ensures f[i].id != f[j].id
    {
      assert f[j] == rest[j - 1];
      if i > 0 {
        assert f[i] == rest[i - 1];
      }
    }
  }

  /** When the plan's item ids are distinct, so are the ids of the initial work orders. */
  lemma InitialTaskIdsDistinct(machine: Machine)
    requires DistinctIds(machine.plan)
    ensures var r := InitialTasks(machine);
      forall i, j :: 0 <= i < j < |r| ==> r[i].id != r[j].id
  {
    var items := Filter(machine.plan, Schedulable);
    FilterKeepsDistinctIds(machine.plan, Schedulable);
    var r := InitialTasks(machine);
    forall i, j | 0 <= i < j < |r|
      ensures r[i].id != r[j].id
    {
      if r[i].id == r[j].id {
        assert r[i].id == InitialTaskId(machine.id, items[i].id);
        assert r[j].id == InitialTaskId(machine.id, items[j].id);
        InitialTaskIdInjective(machine.id, items[i].id, items[j].id);
      }
    }
  }
}

=== FILE: seqs.dfy ===
/** Order-preserving filtering, searching and counting over sequences (Array.prototype.filter/find). */
module Seqs {
  import opened Wrappers

  /** `a` can be obtained from `b` by deleting elements, keeping the order of the rest. */
  predicate IsSubsequence<T(==)>(a: seq<T>, b: seq<T>)
    decreases |b|
  {
    if |a| == 0 then true
    else if |b| == 0 then false
    else if a[0] == b[0] then IsSubsequence(a[1..], b[1..])
    else IsSubsequence(a, b[1..])
  }

  /** The elements of `s` that satisfy `p`, in their original order. */
  function Filter<T>(s: seq<T>, p: T -> bool): (r: seq<T>)
    ensures |r| <= |s|
    ensures forall i :: 0 <= i < |r| ==> r[i] in s && p(r[i])
    ensures forall i :: 0 <= i < |s| && p(s[i]) ==> s[i] in r
    ensures IsSubsequence(r, s)
    decreases |s|
  {
    if |s| == 0 then []
    else if p(s[0]) then [s[0]] + Filter(s[1..], p)
    else Filter(s[1..], p)
  }

  /** Number of elements of `s` that satisfy `p`. */
  function Count<T>(s: seq<T>, p: T -> bool): nat {
    |Filter(s, p)|
  }

  function Or<T>(p: T -> bool, q: T -> bool): T -> bool {
    x => p(x) || q(x)
  }

  /** The count splits into the first element's share and the rest's. */
  lemma CountCons<T>(s: seq<T>, p: T -> bool)
    requires |s| > 0
    ensures Count(s, p) == (if p(s[0]) then 1 else 0) + Count(s[1..], p)
  {
  }

  /** Filtering with a predicate every element meets keeps the whole sequence. */
  lemma {:induction false} FilterAll<T>(s: seq<T>, p: T -> bool)
    requires forall i :: 0 <= i < |s| ==> p(s[i])
    ensures Filter(s, p) == s
    decreases |s|
  {
    if |s| > 0 {
      FilterAll(s[1..], p);
    }
  }

  /** Filtering a sequence extended by one element extends the filtered sequence accordingly. */
  lemma {:induction false} FilterSnoc<T>(s: seq<T>, x: T, p: T -> bool)
    ensures Filter(s + [x], p) == Filter(s, p) + (if p(x) then [x] else [])
    decreases |s|
  {
    if |s| == 0 {
      assert s + [x] == [x];
    } else {
      assert (s + [x])[1..] == s[1..] + [x];
      FilterSnoc(s[1..], x, p);
    }
  }

  /** A weaker predicate selects at least as many elements. */
  lemma {:induction false} CountMonotone<T>(s: seq<T>, p: T -> bool, q: T -> bool)
    requires forall i :: 0 <= i < |s| && p(s[i]) ==> q(s[i])
    ensures Count(s, p) <= Count(s, q)
    decreases |s|
  {
    if |s| > 0 {
      CountMonotone(s[1..], p, q);
    }
  }

  /** Counts of two predicates no element meets together add up to the count of their disjunction. */
  lemma {:induction false} CountDisjoint<T>(s: seq<T>, p: T -> bool, q: T -> bool)
    requires forall i :: 0 <= i < |s| ==> !(p(s[i]) && q(s[i]))
    ensures Count(s, p) + Count(s, q) == Count(s, Or(p, q))
    decreases |s|
  {
    if |s| > 0 {
      CountDisjoint(s[1..], p, q);
    }
  }

  /** A predicate and its negation split the sequence. */
  lemma {:induction false} CountComplement<T>(s: seq<T>, p: T -> bool, q: T -> bool)
    requires forall i :: 0 <= i < |s| ==> (q(s[i]) <==> !p(s[i]))
    ensures Count(s, p) + Count(s, q) == |s|
    decreases |s|
  {
    if |s| > 0 {
      CountComplement(s[1..], p, q);
    }
  }

  /** Index of the first element satisfying `p` (Array.prototype.findIndex), None when there is none. */
  function FindIndex<T>(s: seq<T>, p: T -> bool): (r: Option<nat>)
    ensures r.Some? ==> r.value < |s| && p(s[r.value]) && forall j :: 0 <= j < r.value ==> !p(s[j])
    ensures r.None? ==> forall j :: 0 <= j < |s| ==> !p(s[j])
    decreases |s|
  {
    if |s| == 0 then None
    else if p(s[0]) then Some(0)
    else match FindIndex(s[1..], p)
      case None => None
      case Some(i) => Some(i + 1)
  }

  /** The first element satisfying `p` (Array.prototype.find), None when there is none. */
  function Find<T>(s: seq<T>, p: T -> bool): (r: Option<T>)
    ensures r.Some? ==> r.value in s && p(r.value)
    ensures r.None? <==> forall i :: 0 <= i < |s| ==> !p(s[i])
  {
    match FindIndex(s, p)
    case None => None
    case Some(i) => Some(s[i])
  }
}

=== FILE: sorting.dfy ===
/**
 * Sorting by an integer key (Array.prototype.sort with a numeric-difference comparator),
 * as a functional insertion sort.
 */
module Sorting {

  /** Keys never decrease along the sequence. */
  predicate SortedBy<T>(s: seq<T>, key: T -> int) {
    forall i, j :: 0 <= i < j < |s| ==> key(s[i]) <= key(s[j])
  }

  /** `x` placed in front of the first element whose key is not smaller than its own. */
  function InsertBy<T>(x: T, s: seq<T>, key: T -> int): (r: seq<T>)
    ensures |r| == |s| + 1
    decreases |s|
  {
    if |s| == 0 || key(x) <= key(s[0]) then [x] + s
    else [s[0]] + InsertBy(x, s[1..], key)
  }

  /** Inserting adds exactly the one element. */
  lemma {:induction false} InsertByPermutes<T>(x: T, s: seq<T>, key: T -> int)
    ensures multiset(InsertBy(x, s, key)) == multiset(s) + multiset{x}
    decreases |s|
  {
    if |s| > 0 && key(x) > key(s[0]) {
      InsertByPermutes(x, s[1..], key);
      assert s == [s[0]] + s[1..];
    }
  }

  /** Inserting into a sorted sequence keeps it sorted. */
  lemma {:induction false} InsertBySorted<T>(x: T, s: seq<T>, key: T -> int)
    requires SortedBy(s, key)
    ensures SortedBy(InsertBy(x, s, key), key)
    decreases |s|
  {
    if |s| > 0 && key(x) > key(s[0]) {
      var tail := InsertBy(x, s[1..], key);
      InsertBySorted(x, s[1..], key);
      InsertByPermutes(x, s[1..], key);
      forall k | 0 <= k < |tail|
        ensures key(s[0]) <= key(tail[k])
      {
        assert tail[k] in multiset(tail);
        if tail[k] != x {
          assert tail[k] in multiset(s[1..]);
          var i :| 0 <= i < |s[1..]| && s[1..][i] == tail[k];
          assert s[i + 1] == tail[k];
        }
      }
      var r := [s[0]] + tail;
      forall i, j | 0 <= i < j < |r|
        ensures key(r[i]) <= key(r[j])
      {
        if i > 0 {
          assert r[i] == tail[i - 1] && r[j] == tail[j - 1];
        } else {
          assert r[j] == tail[j - 1];
        }
      }
    }
  }

  /** The elements of `s` rearranged so that their keys never decrease. */
  function SortBy<T>(s: seq<T>, key: T -> int): (r: seq<T>)
    ensures |r| == |s|
    ensures multiset(r) == multiset(s)
    ensures SortedBy(r, key)
    decreases |s|
  {
    if |s| == 0 then []
    else
      var rest := SortBy(s[1..], key);
      InsertBySorted(s[0], rest, key);
      InsertByPermutes(s[0], rest, key);
      assert s == [s[0]] + s[1..];
      InsertBy(s[0], rest, key)
  }

  /** A sorted sequence holds exactly the elements of its input. */
  lemma SortByKeepsElements<T>(s: seq<T>, key: T -> int, x: T)
    ensures x in SortBy(s, key) <==> x in s
  {
    var r := SortBy(s, key);
    assert x in r <==> x in multiset(r);
    assert x in s <==> x in multiset(s);
  }

  /** The elements of `s` whose key is `v`, in their order in `s`. */
  function WithKey<T>(s: seq<T>, key: T -> int, v: int): seq<T>
    decreases |s|
  {
    if |s| == 0 then []
    else (if key(s[0]) == v then [s[0]] else []) + WithKey(s[1..], key, v)
  }

  lemma WithKeyCons<T>(x: T, s: seq<T>, key: T -> int, v: int)
    ensures WithKey([x] + s, key, v) == (if key(x) == v then [x] else []) + WithKey(s, key, v)
  {
    assert ([x] + s)[1..] == s;
  }

  /** Among the elements of one key, the inserted one comes first and the others keep their order. */
  lemma {:induction false} InsertByKeyOrder<T>(x: T, s: seq<T>, key: T -> int, v: int)
    ensures WithKey(InsertBy(x, s, key), key, v) == (if key(x) == v then [x] else []) + WithKey(s, key, v)
    decreases |s|
  {
    if |s| == 0 || key(x) <= key(s[0]) {
      WithKeyCons(x, s, key, v);
    } else {
      var rest := InsertBy(x, s[1..], key);
      var head: seq<T> := if key(s[0]) == v then [s[0]] else [];
      var mine: seq<T> := if key(x) == v then [x] else [];
      assert WithKey(InsertBy(x, s, key), key, v) == head + WithKey(rest, key, v) by {
        assert InsertBy(x, s, key) == [s[0]] + rest;
        WithKeyCons(s[0], rest, key, v);
      }
      InsertByKeyOrder(x, s[1..], key, v);
      assert key(x) == v ==> head == [];
      assert head + (mine + WithKey(s[1..], key, v)) == mine + (head + WithKey(s[1..], key, v));
    }
  }

  /** The sort is stable: the elements of each key appear in their input order. */
  lemma {:induction false} SortByStable<T>(s: seq<T>, key: T -> int, v: int)
    ensures WithKey(SortBy(s, key), key, v) == WithKey(s, key, v)
    decreases |s|
  {
    if |s| > 0 {
      SortByStable(s[1..], key, v);
      InsertByKeyOrder(s[0], SortBy(s[1..], key), key, v);
    }
  }
}

=== FILE: stats.dfy ===
/** The dashboard's aggregate figures over the machine and task collections (calculateDashboardStats). */
module Stats {
  import opened Wrappers
  import opened Dates
  import opened Types
  import opened Seqs

  predicate IsOperational(m: Machine) { m.status == Operational }
  predicate IsInMaintenance(m: Machine) { m.status == InMaintenance }
  predicate IsCritical(m: Machine) { m.status == Critical }
  predicate IsStopped(m: Machine) { m.status == Stopped }

  predicate IsPending(t: MaintenanceTask) { t.status == Pending }
  predicate IsOverdue(t: MaintenanceTask) { t.status == Overdue }
  predicate IsCompleted(t: MaintenanceTask) { t.status == Completed }

  /** The task carries a completion date in the month and year of `now`. */
  predicate CompletedInMonth(t: MaintenanceTask, now: CivilDate) {
    t.completedDate.Some? && t.completedDate.value.month == now.month && t.completedDate.value.year == now.year
  }

  /** A completed task with a non-zero recorded duration: the ones the average is taken over. */
  predicate HasRecordedDuration(t: MaintenanceTask) {
    t.status == Completed && t.actualDuration.Some? && t.actualDuration.value != 0.0
  }

  /** A completed task finished no later than its scheduled date. */
  predicate CompletedOnTime(t: MaintenanceTask) {
    t.status == Completed && t.completedDate.Some? && DateLe(t.completedDate.value, t.scheduledDate)
  }

  /** `t.cost || 0`. */
  function CostOrZero(t: MaintenanceTask): real {
    t.cost.GetOr(0.0)
  }

  function SumCosts(ts: seq<MaintenanceTask>): real {
    if |ts| == 0 then 0.0 else CostOrZero(ts[0]) + SumCosts(ts[1..])
  }

  function SumDurations(ts: seq<MaintenanceTask>): real {
    if |ts| == 0 then 0.0 else ts[0].actualDuration.GetOr(0.0) + SumDurations(ts[1..])
  }

  function ThisMonth(now: CivilDate): MaintenanceTask -> bool {
    t => CompletedInMonth(t, now)
  }

  /** The four machine statuses split the machines. */
  lemma MachineStatusPartition(machines: seq<Machine>)
    ensures Count(machines, IsOperational) + Count(machines, IsInMaintenance) + Count(machines, IsCritical)
      + Count(machines, IsStopped) == |machines|
  {
    CountDisjoint(machines, IsOperational, IsInMaintenance);
    var working := Or(IsOperational, IsInMaintenance);
    CountDisjoint(machines, working, IsCritical);
    CountComplement(machines, Or(working, IsCritical), IsStopped);
  }

  /** A quotient lies between the bounds its numerator has as multiples of the divisor. */
  lemma DivBounds(sum: real, n: real, lo: real, hi: real)
    requires 0.0 < n && lo * n <= sum <= hi * n
    ensures lo <= sum / n <= hi
  {
    assert (sum / n) * n == sum;
  }

  /** `p` is `a` as a percentage of `b`: `p` hundredths of `b` make `a`. */
  predicate IsPercentOf(p: real, a: nat, b: nat) {
    p * (b as real) == 100.0 * (a as real)
  }

  /** `a` as a percentage of `b`. */
  function Percent(a: nat, b: nat): (p: real)
    requires 0 < b && a <= b
    ensures 0.0 <= p <= 100.0
    ensures a == b ==> p == 100.0
    ensures IsPercentOf(p, a, b)
  {
    var x, y := a as real, b as real;
    DivBounds(x, y, 0.0, 1.0);
    assert (x / y) * y == x;
    assert ((x / y) * 100.0) * y == ((x / y) * y) * 100.0;
    if a == b then
      assert x / y == 1.0 by {
        assert x == y && (x / y) * y == 1.0 * y;
      }
      (x / y) * 100.0
    else
      (x / y) * 100.0
  }

  /** Percentage of completed tasks finished on time; 0 when nothing is completed. */
  function Efficiency(tasks: seq<MaintenanceTask>): (e: real)
    ensures 0.0 <= e <= 100.0
    ensures Count(tasks, IsCompleted) == 0 ==> e == 0.0
    ensures Count(tasks, IsCompleted) > 0 && (forall i :: 0 <= i < |tasks| && IsCompleted(tasks[i]) ==> CompletedOnTime(tasks[i]))
      ==> e == 100.0
    ensures Count(tasks, IsCompleted) > 0 ==> IsPercentOf(e, Count(tasks, CompletedOnTime), Count(tasks, IsCompleted))
  {
    var onTime := Count(tasks, CompletedOnTime);
    var completed := Count(tasks, IsCompleted);
    CountMonotone(tasks, CompletedOnTime, IsCompleted);
    AllOnTime(tasks);
    if completed > 0 then Percent(onTime, completed) else 0.0
  }

  /** When every completed order was on time, the on-time count is the completed count. */
  lemma AllOnTime(tasks: seq<MaintenanceTask>)
    ensures (forall i :: 0 <= i < |tasks| && IsCompleted(tasks[i]) ==> CompletedOnTime(tasks[i])) ==>
      Count(tasks, CompletedOnTime) == Count(tasks, IsCompleted)
  {
    CountMonotone(tasks, CompletedOnTime, IsCompleted);
    if forall i :: 0 <= i < |tasks| && IsCompleted(tasks[i]) ==> CompletedOnTime(tasks[i]) {
      CountMonotone(tasks, IsCompleted, CompletedOnTime);
    }
  }

  /** Mean recorded duration of completed tasks; 0 when none has one. */
  function AverageCompletionTime(tasks: seq<MaintenanceTask>): (a: real)
    ensures Count(tasks, HasRecordedDuration) == 0 ==> a == 0.0
  {
    var recorded := Filter(tasks, HasRecordedDuration);
    if |recorded| > 0 then SumDurations(recorded) / (|recorded| as real) else 0.0
  }

  /** calculateDashboardStats, with the current date passed in. */
  function ComputeStats(machines: seq<Machine>, tasks: seq<MaintenanceTask>, now: CivilDate): (s: DashboardStats)
    ensures s.totalMachines == |machines|
    ensures s.operationalMachines + s.machinesInMaintenance + s.criticalMachines + Count(machines, IsStopped)
      == s.totalMachines
    ensures s.pendingMaintenances + s.overdueMaintenances <= |tasks|
    ensures s.completedThisMonth <= |tasks|
    ensures 0.0 <= s.maintenanceEfficiency <= 100.0
    ensures Count(tasks, IsCompleted) == 0 ==> s.maintenanceEfficiency == 0.0
    ensures Count(tasks, HasRecordedDuration) == 0 ==> s.averageCompletionTime == 0.0
    ensures (forall i :: 0 <= i < |tasks| ==> CostOrZero(tasks[i]) >= 0.0) ==> s.totalCostThisMonth >= 0.0
  {
    MachineStatusPartition(machines);
    CountDisjoint(tasks, IsPending, IsOverdue);
    SumCostsNonNegative(Filter(tasks, ThisMonth(now)));
    DashboardStats(
      totalMachines := |machines|,
      operationalMachines := Count(machines, IsOperational),
      machinesInMaintenance := Count(machines, IsInMaintenance),
      criticalMachines := Count(machines, IsCritical),
      pendingMaintenances := Count(tasks, IsPending),
      overdueMaintenances := Count(tasks, IsOverdue),
      completedThisMonth := Count(tasks, ThisMonth(now)),
      totalCostThisMonth := SumCosts(Filter(tasks, ThisMonth(now))),
      averageCompletionTime := AverageCompletionTime(tasks),
      maintenanceEfficiency := Efficiency(tasks))
  }

  lemma {:induction false} SumCostsNonNegative(ts: seq<MaintenanceTask>)
    ensures (forall i :: 0 <= i < |ts| ==> CostOrZero(ts[i]) >= 0.0) ==> SumCosts(ts) >= 0.0
  {
    if |ts| > 0 {
      SumCostsNonNegative(ts[1..]);
    }
  }

  lemma {:induction false} SumCostsSnoc(ts: seq<MaintenanceTask>, t: MaintenanceTask)
    ensures SumCosts(ts + [t]) == SumCosts(ts) + CostOrZero(t)
  {
    if |ts| > 0 {
      assert (ts + [t])[1..] == ts[1..] + [t];
      SumCostsSnoc(ts[1..], t);
    } else {
      assert ts + [t] == [t];
    }
  }

  /**
   * Recording one more task moves each task figure by that task's contribution alone and
   * leaves the machine figures as they were.
   */
  lemma StatsAfterAddingTask(machines: seq<Machine>, tasks: seq<MaintenanceTask>, t: MaintenanceTask, now: CivilDate)
    ensures var before := ComputeStats(machines, tasks, now);
      var after := ComputeStats(machines, tasks + [t], now);
      && after.totalMachines == before.totalMachines
      && after.operationalMachines == before.operationalMachines
      && after.machinesInMaintenance == before.machinesInMaintenance
      && after.criticalMachines == before.criticalMachines
      && after.pendingMaintenances == before.pendingMaintenances + (if IsPending(t) then 1 else 0)
      && after.overdueMaintenances == before.overdueMaintenances + (if IsOverdue(t) then 1 else 0)
      && after.completedThisMonth == before.completedThisMonth + (if CompletedInMonth(t, now) then 1 else 0)
      && after.totalCostThisMonth == before.totalCostThisMonth + (if CompletedInMonth(t, now) then CostOrZero(t) else 0.0)
  {
    FilterSnoc(tasks, t, IsPending);
    FilterSnoc(tasks, t, IsOverdue);
    FilterSnoc(tasks, t, ThisMonth(now));
    var month := Filter(tasks, ThisMonth(now));
    if CompletedInMonth(t, now) {
      SumCostsSnoc(month, t);
    } else {
      assert month + [] == month;
    }
  }

  /**
   * Registering one more machine raises exactly the count of its status (and the total) by one,
   * and leaves every task figure as it was.
   */
  lemma StatsAfterAddingMachine(machines: seq<Machine>, tasks: seq<MaintenanceTask>, m: Machine, now: CivilDate)
    ensures var before := ComputeStats(machines, tasks, now);
      var after := ComputeStats(machines + [m], tasks, now);
      && after.totalMachines == before.totalMachines + 1
      && after.operationalMachines == before.operationalMachines + (if m.status == Operational then 1 else 0)
      && after.machinesInMaintenance == before.machinesInMaintenance + (if m.status == InMaintenance then 1 else 0)
      && after.criticalMachines == before.criticalMachines + (if m.status == Critical then 1 else 0)
      && after.pendingMaintenances == before.pendingMaintenances
      && after.overdueMaintenances == before.overdueMaintenances
      && after.completedThisMonth == before.completedThisMonth
      && after.totalCostThisMonth == before.totalCostThisMonth
      && after.averageCompletionTime == before.averageCompletionTime
      && after.maintenanceEfficiency == before.maintenanceEfficiency
  {
    FilterSnoc(machines, m, IsOperational);
    FilterSnoc(machines, m, IsInMaintenance);
    FilterSnoc(machines, m, IsCritical);
  }

  lemma {:induction false} SumDurationsBounds(ts: seq<MaintenanceTask>, lo: real, hi: real)
    requires forall i :: 0 <= i < |ts| ==> lo <= ts[i].actualDuration.GetOr(0.0) <= hi
    ensures lo * (|ts| as real) <= SumDurations(ts) <= hi * (|ts| as real)
  {
    if |ts| > 0 {
      SumDurationsBounds(ts[1..], lo, hi);
    }
  }

  lemma RecordedDurationsBounded(tasks: seq<MaintenanceTask>, lo: real, hi: real)
    requires forall i :: 0 <= i < |tasks| && HasRecordedDuration(tasks[i]) ==> lo <= tasks[i].actualDuration.value <= hi
    ensures var recorded := Filter(tasks, HasRecordedDuration);
      forall i :: 0 <= i < |recorded| ==> lo <= recorded[i].actualDuration.GetOr(0.0) <= hi
  {
    var recorded := Filter(tasks, HasRecordedDuration);
    forall i | 0 <= i < |recorded|
      ensures lo <= recorded[i].actualDuration.GetOr(0.0) <= hi
    {
      var j :| 0 <= j < |tasks| && tasks[j] == recorded[i];
    }
  }

  /** The mean of durations that each lie in [lo, hi] lies there too. */
  lemma MeanWithin(ts: seq<MaintenanceTask>, lo: real, hi: real)
    requires |ts| > 0
    requires forall i :: 0 <= i < |ts| ==> lo <= ts[i].actualDuration.GetOr(0.0) <= hi
    ensures lo <= SumDurations(ts) / (|ts| as real) <= hi
  {
    SumDurationsBounds(ts, lo, hi);
    DivBounds(SumDurations(ts), |ts| as real, lo, hi);
  }

  /** When every recorded duration lies in [lo, hi], so does their average. */
  lemma AverageWithinRange(tasks: seq<MaintenanceTask>, lo: real, hi: real)
    requires Count(tasks, HasRecordedDuration) > 0
    requires forall i :: 0 <= i < |tasks| && HasRecordedDuration(tasks[i]) ==> lo <= tasks[i].actualDuration.value <= hi
    ensures lo <= AverageCompletionTime(tasks) <= hi
  {
    RecordedDurationsBounded(tasks, lo, hi);
    MeanWithin(Filter(tasks, HasRecordedDuration), lo, hi);
  }
}

=== FILE: text.dfy ===
/** The string operations the search filters, form guards and date formatter rely on. */
module Text {

  /** Characters `String.prototype.trim` removes: ECMAScript WhiteSpace and LineTerminator. */
  predicate IsTrimmable(c: char) {
    c == '\t' || c == '\n' || c == '\U{000B}' || c == '\U{000C}' || c == '\r' || c == ' '
    || c == '\U{00A0}' || c == '\U{1680}' || ('\U{2000}' <= c <= '\U{200A}')
    || c == '\U{2028}' || c == '\U{2029}' || c == '\U{202F}' || c == '\U{205F}'
    || c == '\U{3000}' || c == '\U{FEFF}'
  }

  /** `s` without its leading whitespace. */
  function TrimStart(s: string): (r: string)
    ensures |r| <= |s| && r == s[|s| - |r|..]
    ensures forall i :: 0 <= i < |s| - |r| ==> IsTrimmable(s[i])
    ensures |r| > 0 ==> !IsTrimmable(r[0])
  {
    if |s| > 0 && IsTrimmable(s[0]) then TrimStart(s[1..]) else s
  }

  /** `s` without its trailing whitespace. */
  function TrimEnd(s: string): (r: string)
    ensures |r| <= |s| && r == s[..|r|]
    ensures forall i :: |r| <= i < |s| ==> IsTrimmable(s[i])
    ensures |r| > 0 ==> !IsTrimmable(r[|r| - 1])
  {
    if |s| > 0 && IsTrimmable(s[|s| - 1]) then TrimEnd(s[..|s| - 1]) else s
  }

  lemma TrimBothEnds(s: string)
    ensures var r := TrimEnd(TrimStart(s));
      (r == "" <==> forall i :: 0 <= i < |s| ==> IsTrimmable(s[i]))
      && (|r| > 0 ==> !IsTrimmable(r[0]) && !IsTrimmable(r[|r| - 1]))
  {
    var t := TrimStart(s);
    var r := TrimEnd(t);
    if r != "" {
      assert r[0] == t[0];
    }
  }

  /** `String.prototype.trim`. */
  function Trim(s: string): (r: string)
    ensures r == "" <==> forall i :: 0 <= i < |s| ==> IsTrimmable(s[i])
    ensures |r| > 0 ==> !IsTrimmable(r[0]) && !IsTrimmable(r[|r| - 1])
  {
    TrimBothEnds(s);
    TrimEnd(TrimStart(s))
  }

  /** A form field that `!field.trim()` rejects. */
  predicate IsBlank(s: string) {
    Trim(s) == ""
  }

  /** Upper-case letters `toLowerCase` maps by a fixed offset: ASCII and Latin-1. */
  predicate IsUpper(c: char) {
    ('A' <= c <= 'Z') || ('\U{00C0}' <= c <= '\U{00DE}' && c != '\U{00D7}')
  }

  function LowerChar(c: char): (r: char)
    ensures !IsUpper(r)
    ensures IsUpper(c) ==> r as int == c as int + 32
    ensures !IsUpper(c) ==> r == c
  {
    if IsUpper(c) then (c as int + 32) as char else c
  }

  /** `String.prototype.toLowerCase` on the letters `IsUpper` covers. */
  function Lower(s: string): (r: string)
    ensures |r| == |s|
    ensures forall i :: 0 <= i < |s| ==> r[i] == LowerChar(s[i])
  {
    seq(|s|, i requires 0 <= i < |s| => LowerChar(s[i]))
  }

  /** Lower-casing twice changes nothing more. */
  lemma LowerIdempotent(s: string)
    ensures Lower(Lower(s)) == Lower(s)
  {
  }

  predicate IsPrefix(p: string, s: string) {
    |p| <= |s| && s[..|p|] == p
  }

  /** `haystack.includes(needle)`. */
  predicate Contains(haystack: string, needle: string)
    decreases |haystack|
  {
    IsPrefix(needle, haystack) || (|haystack| > 0 && Contains(haystack[1..], needle))
  }

  /** `needle` occurs in `haystack` starting at position `i`. */
  predicate OccursAt(haystack: string, needle: string, i: int) {
    0 <= i <= |haystack| - |needle| && haystack[i..i + |needle|] == needle
  }

  /** `includes` holds exactly when the needle occurs at some position. */
  lemma {:induction false} ContainsIffOccurs(haystack: string, needle: string)
    ensures Contains(haystack, needle)
        <==> exists i :: OccursAt(haystack, needle, i)
    decreases |haystack|
  {
    if IsPrefix(needle, haystack) {
      assert OccursAt(haystack, needle, 0);
    } else if |haystack| > 0 {
      ContainsIffOccurs(haystack[1..], needle);
      if Contains(haystack[1..], needle) {
        var i :| OccursAt(haystack[1..], needle, i);
        assert haystack[i + 1..i + 1 + |needle|] == haystack[1..][i..i + |needle|];
        assert OccursAt(haystack, needle, i + 1);
      }
      if exists i :: OccursAt(haystack, needle, i) {
        var i :| OccursAt(haystack, needle, i);
        assert i != 0;
        assert haystack[1..][i - 1..i - 1 + |needle|] == haystack[i..i + |needle|];
        assert OccursAt(haystack[1..], needle, i - 1);
      }
    } else {
      assert forall i :: !OccursAt(haystack, needle, i);
    }
  }

  /** Every string includes the empty string: an empty search matches everything. */
  lemma ContainsEmpty(haystack: string)
    ensures Contains(haystack, "")
  {
    assert IsPrefix("", haystack);
  }

  /** `s.split(sep)` for a one-character separator: the pieces between separators, empty ones included. */
  function Split(s: string, sep: char): (parts: seq<string>)
    ensures |parts| >= 1
    ensures forall i :: 0 <= i < |parts| ==> sep !in parts[i]
  {
    if |s| == 0 then [""]
    else
      var rest := Split(s[1..], sep);
      if s[0] == sep then [""] + rest
      else [[s[0]] + rest[0]] + rest[1..]
  }

  /** `parts.join(sep)`. */
  function Join(parts: seq<string>, sep: char): string
    requires |parts| >= 1
  {
    if |parts| == 1 then parts[0] else parts[0] + [sep] + Join(parts[1..], sep)
  }

  /** Joining the pieces of a split restores the string. */
  lemma {:induction false} JoinSplit(s: string, sep: char)
    ensures Join(Split(s, sep), sep) == s
  {
    if |s| > 0 {
      JoinSplit(s[1..], sep);
      var rest := Split(s[1..], sep);
      if s[0] == sep {
        assert ([""] + rest)[1..] == rest;
      } else {
        var parts := [[s[0]] + rest[0]] + rest[1..];
        if |rest| > 1 {
          assert parts[1..] == rest[1..];
          assert Join(rest, sep) == rest[0] + [sep] + Join(rest[1..], sep);
        }
      }
    }
  }

  lemma SplitCons(c: char, x: string, sep: char)
    ensures c == sep ==> Split([c] + x, sep) == [""] + Split(x, sep)
    ensures c != sep ==> Split([c] + x, sep) == [[c] + Split(x, sep)[0]] + Split(x, sep)[1..]
  {
    assert ([c] + x)[1..] == x;
  }

  /** Splitting the join of separator-free pieces gives the pieces back. */
  lemma {:induction false} SplitJoin(parts: seq<string>, sep: char)
    requires |parts| >= 1
    requires forall i :: 0 <= i < |parts| ==> sep !in parts[i]
    ensures Split(Join(parts, sep), sep) == parts
    decreases |parts|, |parts[0]|
  {
    var p := parts[0];
    if |p| > 0 {
      var shorter := [p[1..]] + parts[1..];
      assert shorter[1..] == parts[1..];
      assert forall i :: 0 <= i < |shorter| ==> sep !in shorter[i] by {
        assert forall i :: 1 <= i < |shorter| ==> shorter[i] == parts[i];
      }
      SplitJoin(shorter, sep);
      SplitJoinFirstChar(parts, sep);
    } else if |parts| > 1 {
      assert forall i :: 0 <= i < |parts[1..]| ==> sep !in parts[1..][i] by {
        assert forall i :: 0 <= i < |parts[1..]| ==> parts[1..][i] == parts[i + 1];
      }
      SplitJoin(parts[1..], sep);
      SplitJoinEmptyFirst(parts, sep);
    }
  }

  /** The inductive step for a first piece that is not empty: its first character leads the split. */
  lemma SplitJoinFirstChar(parts: seq<string>, sep: char)
    requires |parts| >= 1 && |parts[0]| > 0 && parts[0][0] != sep
    requires Split(Join([parts[0][1..]] + parts[1..], sep), sep) == [parts[0][1..]] + parts[1..]
    ensures Split(Join(parts, sep), sep) == parts
  {
    var p := parts[0];
    var shorter := [p[1..]] + parts[1..];
    var x := Join(shorter, sep);
    JoinFirstChar(parts, sep);
    SplitCons(p[0], x, sep);
    assert Split(x, sep)[0] == p[1..] && Split(x, sep)[1..] == parts[1..];
    assert [p[0]] + p[1..] == p;
    assert [p] + parts[1..] == parts;
  }

  /** A join starts with the first character of its first piece. */
  lemma JoinFirstChar(parts: seq<string>, sep: char)
    requires |parts| >= 1 && |parts[0]| > 0
    ensures Join(parts, sep) == [parts[0][0]] + Join([parts[0][1..]] + parts[1..], sep)
  {
    var p := parts[0];
    var shorter := [p[1..]] + parts[1..];
    assert shorter[0] == p[1..] && shorter[1..] == parts[1..];
    assert [p[0]] + p[1..] == p;
    if |parts| > 1 {
      var j := Join(parts[1..], sep);
      assert Join(shorter, sep) == p[1..] + [sep] + j;
      assert [p[0]] + (p[1..] + [sep] + j) == p + [sep] + j;
    }
  }

  /** The inductive step for an empty first piece: the join starts with the separator. */
  lemma SplitJoinEmptyFirst(parts: seq<string>, sep: char)
    requires |parts| > 1 && parts[0] == ""
    requires Split(Join(parts[1..], sep), sep) == parts[1..]
    ensures Split(Join(parts, sep), sep) == parts
  {
    assert Join(parts, sep) == [sep] + Join(parts[1..], sep);
    SplitCons(sep, Join(parts[1..], sep), sep);
    assert [""] + parts[1..] == parts;
  }

  /** The piece at `i` of a destructuring assignment; missing pieces render as "undefined". */
  function Piece(parts: seq<string>, i: nat): string {
    if i < |parts| then parts[i] else "undefined"
  }

  /** `formatDateSafely`: reorders the first three '-'-separated pieces into `day/month/year`. */
  function FormatDateSafely(s: string): (r: string)
    ensures var parts := Split(s, '-');
      |parts| >= 3 ==> r == parts[2] + "/" + parts[1] + "/" + parts[0]
  {
    var parts := Split(s, '-');
    Piece(parts, 2) + "/" + Piece(parts, 1) + "/" + Piece(parts, 0)
  }

  /** A `YYYY-MM-DD` string becomes `DD/MM/YYYY` with each piece copied unchanged. */
  lemma FormatDateSafelyReorders(year: string, month: string, day: string)
    requires '-' !in year && '-' !in month && '-' !in day
    ensures FormatDateSafely(year + "-" + month + "-" + day) == day + "/" + month + "/" + year
  {
    var parts := [year, month, day];
    assert Join(parts, '-') == year + "-" + month + "-" + day by {
      assert parts[1..] == [month, day] && parts[1..][1..] == [day];
      assert Join(parts[1..], '-') == month + "-" + day;
    }
    SplitJoin(parts, '-');
  }
}

=== FILE: types.dfy ===
/**
 * The domain model of the preventive-maintenance dashboard: machines with their
 * preventive-maintenance plans, work orders (tasks) and the dashboard's aggregate figures.
 * Dates are calendar dates (the `YYYY-MM-DD` strings the entities store); optional
 * fields are `Option`s.
 */
module Types {
  import opened Wrappers
  import opened Dates

  datatype MachineStatus = Operational | InMaintenance | Stopped | Critical

  datatype IntervalUnit = Days | Weeks | Months | Years

  datatype UsageUnit = Hours | Cycles | Tons | Km

  /** The `scheduleType` tag of a plan item. */
  datatype ScheduleType = Time | Usage

  /**
   * How a plan item recurs. Interval fields exist only on time-based items and usage
   * fields only on usage-based ones; each may still be absent, which the scheduler
   * treats as an incomplete configuration.
   */
  datatype Schedule =
    | TimeSchedule(intervalValue: Option<int>, intervalUnit: Option<IntervalUnit>)
    | UsageSchedule(usageLimit: Option<int>, usageUnit: Option<UsageUnit>, currentUsage: Option<int>)
  {
    function Type(): ScheduleType {
      if TimeSchedule? then Time else Usage
    }
  }

  /** One recurring rule of a machine's preventive-maintenance plan. */
  datatype PlanItem = PlanItem(
    id: string,
    taskName: string,
    description: string,
    schedule: Schedule,
    isActive: bool,
    lastExecutionDate: Option<CivilDate>,
    nextScheduledDate: Option<CivilDate>)

  datatype Machine = Machine(
    id: string,
    name: string,
    model: string,
    manufacturer: string,
    serialNumber: string,
    location: string,
    status: MachineStatus,
    installationDate: CivilDate,
    acquisitionDate: CivilDate,
    lastMaintenanceDate: Option<CivilDate>,
    nextMaintenanceDate: Option<CivilDate>,
    operatingHours: Option<int>,
    plan: seq<PlanItem>)

  datatype TaskType = Preventive | Corrective | Predictive

  datatype TaskStatus = Pending | InProgress | Completed | Overdue

  datatype TaskPriority = Urgent | High | Medium | Low

  /** A dated work order; `preventiveItemId` links it back to the plan item it was generated from. */
  datatype MaintenanceTask = MaintenanceTask(
    id: string,
    machineId: string,
    machineName: string,
    taskType: TaskType,
    title: string,
    description: string,
    scheduledDate: CivilDate,
    completedDate: Option<CivilDate>,
    status: TaskStatus,
    priority: TaskPriority,
    estimatedDuration: real,
    actualDuration: Option<real>,
    assignedTo: Option<string>,
    cost: Option<real>,
    notes: Option<string>,
    preventiveItemId: Option<string>)

  /** The dashboard's ten figures. */
  datatype DashboardStats = DashboardStats(
    totalMachines: nat,
    operationalMachines: nat,
    machinesInMaintenance: nat,
    criticalMachines: nat,
    pendingMaintenances: nat,
    overdueMaintenances: nat,
    completedThisMonth: nat,
    totalCostThisMonth: real,
    averageCompletionTime: real,
    maintenanceEfficiency: real)

  // The constant tables of string literals, and their inverses. Each table lists exactly
  // the literals of its union type: `Literal` is injective and `Parse` accepts nothing else.

  function ScheduleTypeLiteral(t: ScheduleType): (lit: string)
  {
    match t
    case Time => "time"
    case Usage => "usage"
  }

  function ParseScheduleType(lit: string): (r: Option<ScheduleType>)
    ensures r.Some? <==> lit in {"time", "usage"}
    ensures r.Some? ==> ScheduleTypeLiteral(r.value) == lit
  {
    if lit == "time" then Some(Time)
    else if lit == "usage" then Some(Usage)
    else None
  }

  function IntervalUnitLiteral(u: IntervalUnit): (lit: string)
  {
    match u
    case Days => "days"
    case Weeks => "weeks"
    case Months => "months"
    case Years => "years"
  }

  function ParseIntervalUnit(lit: string): (r: Option<IntervalUnit>)
    ensures r.Some? <==> lit in {"days", "weeks", "months", "years"}
    ensures r.Some? ==> IntervalUnitLiteral(r.value) == lit
  {
    if lit == "days" then Some(Days)
    else if lit == "weeks" then Some(Weeks)
    else if lit == "months" then Some(Months)
    else if lit == "years" then Some(Years)
    else None
  }

  function UsageUnitLiteral(u: UsageUnit): (lit: string)
  {
    match u
    case Hours => "hours"
    case Cycles => "cycles"
    case Tons => "tons"
    case Km => "km"
  }

  function ParseUsageUnit(lit: string): (r: Option<UsageUnit>)
    ensures r.Some? <==> lit in {"hours", "cycles", "tons", "km"}
    ensures r.Some? ==> UsageUnitLiteral(r.value) == lit
  {
    if lit == "hours" then Some(Hours)
    else if lit == "cycles" then Some(Cycles)
    else if lit == "tons" then Some(Tons)
    else if lit == "km" then Some(Km)
    else None
  }

  function TaskStatusLiteral(s: TaskStatus): (lit: string)
  {
    match s
    case Pending => "pending"
    case InProgress => "in-progress"
    case Completed => "completed"
    case Overdue => "overdue"
  }

  function ParseTaskStatus(lit: string): (r: Option<TaskStatus>)
    ensures r.Some? <==> lit in {"pending", "in-progress", "completed", "overdue"}
    ensures r.Some? ==> TaskStatusLiteral(r.value) == lit
  {
    if lit == "pending" then Some(Pending)
    else if lit == "in-progress" then Some(InProgress)
    else if lit == "completed" then Some(Completed)
    else if lit == "overdue" then Some(Overdue)
    else None
  }

  function TaskPriorityLiteral(p: TaskPriority): (lit: string)
  {
    match p
    case Urgent => "urgent"
    case High => "high"
    case Medium => "medium"
    case Low => "low"
  }

  function ParseTaskPriority(lit: string): (r: Option<TaskPriority>)
    ensures r.Some? <==> lit in {"urgent", "high", "medium", "low"}
    ensures r.Some? ==> TaskPriorityLiteral(r.value) == lit
  {
    if lit == "urgent" then Some(Urgent)
    else if lit == "high" then Some(High)
    else if lit == "medium" then Some(Medium)
    else if lit == "low" then Some(Low)
    else None
  }

  function MachineStatusLiteral(s: MachineStatus): (lit: string)
  {
    match s
    case Operational => "operational"
    case InMaintenance => "maintenance"
    case Stopped => "stopped"
    case Critical => "critical"
  }

  function ParseMachineStatus(lit: string): (r: Option<MachineStatus>)
    ensures r.Some? <==> lit in {"operational", "maintenance", "stopped", "critical"}
    ensures r.Some? ==> MachineStatusLiteral(r.value) == lit
  {
    if lit == "operational" then Some(Operational)
    else if lit == "maintenance" then Some(InMaintenance)
    else if lit == "stopped" then Some(Stopped)
    else if lit == "critical" then Some(Critical)
    else None
  }

  /** Every value's literal parses back to that value: the tables have no duplicates. */
  lemma LiteralsRoundTrip()
    ensures forall t: ScheduleType :: ParseScheduleType(ScheduleTypeLiteral(t)) == Some(t)
    ensures forall u: IntervalUnit :: ParseIntervalUnit(IntervalUnitLiteral(u)) == Some(u)
    ensures forall u: UsageUnit :: ParseUsageUnit(UsageUnitLiteral(u)) == Some(u)
    ensures forall s: TaskStatus :: ParseTaskStatus(TaskStatusLiteral(s)) == Some(s)
    ensures forall p: TaskPriority :: ParseTaskPriority(TaskPriorityLiteral(p)) == Some(p)
    ensures forall s: MachineStatus :: ParseMachineStatus(MachineStatusLiteral(s)) == Some(s)
  {
  }

  /** No status literal is the filter's "all" wildcard, so "all" never selects by status. */
  lemma WildcardIsNoLiteral()
    ensures ParseTaskStatus("all").None? && ParseTaskPriority("all").None? && ParseMachineStatus("all").None?
  {
  }
}

=== FILE: wrappers.dfy ===
/** Optional values: the model's stand-in for TypeScript's `undefined`-able fields and `null` returns. */
module Wrappers {

  datatype Option<+T> = None | Some(value: T) {

    /** Returns the value in Some, or the default when None. */
    function GetOr(default: T): T {
      match this
      case Some(v) => v
      case None => default
    }
  }
}
